=== FILE: README.md ===
# runworker in Dafny

A model of the core of **runworker**, a small Node.js library. It runs a module in a
cluster worker process and turns that module's exported functions into promise-returning
stubs on the coordinator's worker handle. The CommonJS file `js/mod.js` and the ES-module
file `esm/mod.mjs` have the same logic, and one model covers both. The ES-module version
has no options: it is the model with fast mode off.

The model covers the following parts:

- **Values and errors** (`js_values.dfy`, `errors.dfy`). JavaScript values are an
  inductive datatype. Object properties keep `for..in` order, and array elements are
  keyed by their decimal index. `convertErrorToPlainObj` copies the own properties of an
  error onto a fresh object.
- **Export map** (`export_map.dfy`). `buildMap` turns the loaded module into the tree of
  kinds and keys that the worker sends in its `content` envelope. Addresses relate a
  position in the tree to a position in the value.
- **Protocol** (`protocol.dfy`). This file holds the envelope kinds, the `runWorker`
  reference tag, the reserved event names, and JSON as an abstract codec.
- **Mirror** (`proxy.dfy`). The coordinator's `mapper` turns the tree into a log of
  assignments: an empty array or object for each container, and a stub for each
  function or promise. The log is applied to the handle. Each stub carries the key path
  it will call.
- **Worker side** (`dispatch.dfy`). This covers the path walk with its receiver, the
  invocation, the `call-ret` reply, the worker's `message` listener, `sendToMaster`, the
  load bootstrap, and the entry code (fast mode or `init`).
- **Coordinator side** (`correlator.dfy`). This covers option merging and the fast-mode
  decision. It also covers the worker handle with its correlation table of pending
  calls, the stubs, the `message`, `exit` and `error` listeners, and `sendToWorker`.
- **Lifecycle** (`lifecycle.dfy`). The handle is a state machine over the coordinator's
  events, with an invariant on its correlation table. The invariant says:
  - ids are unique;
  - every promise a stub returned is either still pending or settled;
  - no promise is settled twice;
  - once the worker has exited, every promise is settled.

  Every event keeps the invariant, so it holds after any run of events from a fresh
  handle (`Lifecycle.NoCallHangsAfterExit`).
- **End to end** (`end_to_end.dfy`). These theorems span both processes:
  - for a module in which no object has the empty string as a key, every stub the
    coordinator builds names a path that the worker's walk resolves to a callable
    export, with the export's container as receiver, so the branch commented "should
    never happen" (js/mod.js:145-146) is unreachable through the stubs. An object stored
    under the empty key is skipped by the mapper's truthiness test, and then that branch
    is reached (`EndToEnd.EmptyKeyStubMisses`);
  - for a module in which no object has the empty string as a key, every function,
    promise, array or object export below the root has its stub or container at its key
    path (`EndToEnd.EveryExportMirrored`); scalar exports (numbers, strings, booleans,
    `null`, `undefined`) are not mirrored;
  - one remote call settles exactly its own promise with the callee's value or error;
  - start-up succeeds or fails as the source does.
- **Documented examples** (`doc_example.dfy`). This file holds the export tree shown in
  the documentation of `buildMap`, and the example worker's `getY`.

Some things are parameters of the model:
- the loaded module;
- the result of loading it;
- whether loading it registered a `process` listener for `error`;
- the behaviour of exported functions (a `Callee`);
- the random correlation id;
- the JSON codec.

Some behaviours of the code are easy to miss:

- **A path that cannot be walked gets no reply.** The walk `fn = fn[fnPart]` is outside
  the `try` block. When a step reads a property of `undefined` or `null`, the TypeError
  rejects the promise of the `async` listener, and no `call-ret` is sent. Nothing handles
  that rejection. Under Node's default mode since version 15, an unhandled rejection ends
  the process, and the coordinator's exit listener then rejects the call with
  "Worker exited." (`EndToEnd.UnresolvablePathCrashesWorker`).
- **A failed load rejects the spawn promise through the `error` event.** The worker
  sends `emit('error', …)`, and the coordinator re-raises it on the handle. The
  handle's own `error` listener rejects the spawn promise. The exit notification does
  not reject it, so a worker that exits before sending its tree and without an `error`
  event leaves that promise pending for good (`Lifecycle.EarlyExitLeavesSpawnPending`).
- **An `error` event sent to the worker can crash it.** `error` is not a reserved
  name (it is commented out of the list at js/mod.js:221). The worker re-raises an
  `emit` with `process.emit(key, obj)`. If nothing registered a `process` listener for
  `error`, Node's `emit` throws ERR_UNHANDLED_ERROR, and that throw is another unhandled
  rejection of the `async` listener (`Dispatch.WorkerOnMessage`,
  `EndToEnd.CustomEventReachesWorker`).
- **Exit does not clear the table.** On exit, every entry is rejected, but none is
  removed. So a dead handle's table is not empty, but all its promises are settled.
- **`init` is always sent.** The coordinator sends `init` even in fast mode, because the
  flag it checks is only ever set inside a worker process. A worker in fast mode has
  already started, and its handler ignores the `init`.

## Model

| member | source | states |
|---|---|---|
| JsValues.IndexKeyInjective | js/mod.js:59-62 | distinct array indices are enumerated under distinct keys, so the children of an array never share a key |
| JsValues.SetProp | js/mod.js:86 | after `o[key] = val`, `key` reads `val`, every other key reads what it read before, and an existing key keeps its position |
| Errors.CopyOwn | js/mod.js:86 | after copying the first n own properties, each copied key reads the error's value; for an error with distinct keys the copy is exactly those n properties in order |
| Errors.ConvertErrorToPlainObj | js/mod.js:83-88 | the result is a plain object that reads, for every key, exactly what the error's own properties read; for distinct keys it holds the same properties in the same order |
| ExportMap.BuildMap | js/mod.js:52-75 | the node keeps the given key; it is Function, AsyncFunction, Promise, Array, Object or null exactly for that kind of value; otherwise it carries the typeof tag, never "object"; it has one child per enumerated property, keyed by that property's key |
| ExportMap.CallableClassification | js/mod.js:53-58 | a node is Function, AsyncFunction or Promise exactly when its value is a function or a promise |
| ExportMap.BuildMapAt | js/mod.js:59-69 | an address is valid in the tree iff it is valid in the value; the node there is buildMap of the value there under its key, and the truthy keys on the way are the non-empty keys of the value's path |
| ExportMap.NamedPath | js/mod.js:292-294 | when no object has the key "", no key on a path is dropped by the truthiness test |
| ExportMap.BuildMapNice | js/mod.js:52-75 | for a value with distinct non-empty keys, the tree's leaves have no children and sibling keys are truthy and distinct |
| Proxy.Mapper | js/mod.js:288-354 | every assignment lies strictly below the path it was called with, extended by the node's truthy key; every stub's call path equals the location it is assigned to |
| Proxy.MapperCovers | js/mod.js:292-321 | every array, object, function or promise node with a truthy key, reached through truthy-keyed or containing parents, is assigned its entry at its key path |
| Proxy.MapperOrigin | js/mod.js:288-354 | every assignment in the log comes from such a node, at its key path, with the entry for its kind |
| Proxy.CallableRootLost | js/mod.js:350-351 | a function or promise with a falsy key assigns nothing (`parent = fn` only rebinds the local) |
| Proxy.Apply | js/mod.js:299-315 | assigning at a location sets it and discards what was beneath it; locations not below it are unchanged |
| Proxy.ApplyAllOrigin | js/mod.js:305-314 | every entry of the mirror after a run of assignments was already there or was assigned by the run |
| Proxy.MapperKeepsEntry | js/mod.js:288-357 | for a tree with truthy, distinct sibling keys, the final mirror holds at each mirrored node's key path exactly that node's entry, whatever was there before |
| Dispatch.GetProperty | js/mod.js:126 | reading a property throws exactly when the object is undefined or null; with distinct keys the i-th enumerated key reads the i-th value |
| Dispatch.WalkExtend | js/mod.js:124-127 | extending a walked path by one readable key makes the old target the receiver |
| Dispatch.WalkOneStep | js/mod.js:122-127 | a top-level export is called with the loaded module as receiver |
| Dispatch.WalkToAddr | js/mod.js:122-127 | walking the key path of any address reaches the value there, with the value at the parent address as receiver |
| Dispatch.Invoke | js/mod.js:132-147 | a function is called with the receiver and arguments; a promise throws "fn.apply is not a function"; anything else throws the "has no function" error |
| Dispatch.CallReturn | js/mod.js:148-157 | the reply echoes id and path; its error is truthy exactly when the call threw, and is then the flattened error with no result; a returned undefined has no result, any other value its JSON text |
| Dispatch.DispatchCall | js/mod.js:118-158 | a reply is sent exactly when the path can be walked, and otherwise the walk's TypeError escapes; a function that returns gives a null error and the JSON text of a non-undefined value; a function that throws gives its flattened error; a promise gives the flattened "fn.apply is not a function" error and anything else the flattened "has no function" error, both with no result |
| Dispatch.WorkerOnMessage | js/mod.js:111-164 | foreign envelopes change nothing; emit raises the event locally and changes nothing else, except that an `error` event with no `process` listener for it records Node's ERR_UNHANDLED_ERROR, carrying the payload as `context`, as an unhandled rejection and raises nothing; a call whose path can be walked sends one reply, and one that cannot sends nothing and leaves the walk's error as an unhandled rejection; other commands change nothing |
| Dispatch.SendToMaster | js/mod.js:382-387 | a reserved name throws "'key' is a reserved message keyword" and sends nothing; any other name sends exactly one emit envelope |
| Dispatch.Bootstrap | esm/mod.mjs:86-158 | a failed load sends only the flattened error as an `error` event and exits with status 1; a successful one sends exactly one content envelope with the module's tree, and serves with whatever `error` listener loading registered |
| Dispatch.WorkerEntry | js/mod.js:418-429 | the handler starts at once exactly when the environment names a non-empty file, and then with that file |
| Dispatch.InitRequest | js/mod.js:430-436 | the worker loads on an envelope exactly when it is this library's non-empty `init`, and loads the file it names |
| Correlator.MergeOptions | js/mod.js:200-204 | undefined arguments take the defaults true and false; a first argument whose typeof is not "object" gives exactly the two options; an object, array or null first argument has its enumerable keys override the two options, and the other keys keep their values |
| Correlator.SpreadLookup | js/mod.js:204 | after `{...options, ...obj}` a key of obj reads obj's value and any other key reads options' value |
| Correlator.FastModeFromBoolean | js/mod.js:200-213 | with a boolean first argument, fast mode is that boolean and enableRespawn is the second argument or false |
| Correlator.FastModeFromObject | js/mod.js:200-213 | with an options object, fast mode follows its useModeFast when present, and is on when that key is absent |
| Correlator.Spawn | js/mod.js:206-213 | a new handle is live with an empty table and a waiting spawn promise, passes the file to the fork exactly in fast mode, and has sent one `init` with the file |
| Correlator.FindPending | js/mod.js:266 | no entry is found exactly when no entry has the id; a found entry has the id |
| Correlator.RemoveAt | js/mod.js:275 | deleting an entry keeps every other entry in order |
| Correlator.StubCall | js/mod.js:325-349 | on a live handle, the call is registered under its id with a new promise and exactly one call envelope is sent; on a dead one, the new promise is rejected with "worker 'file' not available" and nothing is sent |
| Correlator.RejectAll | js/mod.js:247-251 | every entry is rejected with "Worker exited." in table order, and the table is kept; the spawn promise, mirror, events and outbox are untouched |
| Correlator.OnMessage | js/mod.js:254-364 | foreign envelopes change nothing; the listener throws exactly on a call-ret whose non-empty id has no entry, changing nothing; a known id settles that entry's promise (rejected with a truthy error, else resolved with the parsed result) and removes the entry, leaving mirror, spawn promise and events alone; `emit` reacts exactly as `RaiseEvent`; `content` maps the tree onto the mirror, resolves a waiting spawn promise and settles no call; other commands change nothing |
| Correlator.RaiseEvent | js/mod.js:228-260 | an emitted event is raised on the handle; `error` with an object rejects a waiting spawn promise with the object's `message` and changes nothing for undefined or null (the read throws inside the `try`); `exit` rejects every entry with "Worker exited." but does not mark the handle dead; any other key only raises the event |
| Correlator.OnExit | js/mod.js:247-251 | after exit the handle is dead and every entry still in the table has its promise rejected with "Worker exited."; the spawn promise, mirror, events and outbox are left as they were |
| Lifecycle.DeadHandleKeepsSpawn | js/mod.js:227-250 | on a dead handle, any run of stub calls, messages and exits without a cluster `error` event leaves the spawn promise as it was |
| Lifecycle.EarlyExitLeavesSpawnPending | js/mod.js:247-251 | a worker that exits before its export tree arrives leaves `runWorker`'s promise pending whatever follows, unless a cluster `error` event comes |
| Correlator.OnProcessError | js/mod.js:228-231 | a process error rejects the spawn promise with the error's message if it is still waiting, and leaves calls alone |
| Correlator.SendToWorker | js/mod.js:220-225 | as written it always throws, with the reserved-name error exactly for reserved names |
| Correlator.SendToWorkerIntended | esm/mod.mjs:177-186 | a reserved name throws the reserved-name error; any other name sends exactly one emit envelope with the given message |
| Lifecycle.SpawnEstablishesInv | js/mod.js:209 | the correlation table starts consistent |
| Lifecycle.StubCallPreservesInv | js/mod.js:330-347 | a stub call keeps ids and promises unique and every promise accounted for |
| Lifecycle.ReplyPreservesInv | js/mod.js:263-277 | a conforming message keeps the table consistent and settles nothing twice |
| Lifecycle.ExitPreservesInv | js/mod.js:247-251 | exit settles only promises that were not yet settled |
| Lifecycle.StepPreservesInv | js/mod.js:247-349 | every event keeps the invariant: unique ids of the generated length, unique promises, each promise pending or settled, none settled twice |
| Lifecycle.RunPreservesInv | js/mod.js:209-349 | any sequence of allowed events keeps the invariant |
| Lifecycle.NoCallHangsAfterExit | js/mod.js:247-251 | from a fresh handle, whatever events follow, no promise is settled twice, and once the worker has exited every promise a stub returned is settled |
| Lifecycle.ExitSettlesEveryCall | js/mod.js:247-251 | after the worker exits, every promise any stub returned is settled |
| Lifecycle.ReplySettlesItsOwnCall | js/mod.js:263-277 | a reply settles the call registered under its id and no other, and a second reply with that id throws |
| Lifecycle.UnknownReplyThrows | js/mod.js:266-268 | a reply whose id has no entry throws and leaves the handle unchanged |
| EndToEnd.StubPathResolves | js/mod.js:132-146 | each stub the mapper builds for a module calls the key path of a function or promise export, and the worker's walk of that path reaches it with its container as receiver |
| EndToEnd.MirrorStubResolves | esm/mod.mjs:128-133 | the same holds for every stub in the mirror, so the "has no function" branch is unreachable through the stubs |
| EndToEnd.EmptyKeyStubMisses | js/mod.js:145-146 | for a function inside an object stored under the empty key, the mapper builds a stub for the path without that key, and the worker answers it with the "has no function" error |
| EndToEnd.EveryExportMirrored | js/mod.js:318-351 | every function or promise export below the root gets a stub at its key path, and every array or object export its container |
| EndToEnd.RemoteCallSettles | js/mod.js:263-277 | a stub call sends one call envelope, the worker answers it with one call-ret, and that reply settles exactly the new promise: with the callee's value when it survives JSON (or is undefined), or rejected with the flattened error when the call throws; other calls stay pending |
| EndToEnd.UnresolvablePathCrashesWorker | js/mod.js:111-127 | a path the worker cannot walk gets no reply and leaves the walk's TypeError unhandled in the worker; the promise stays pending until the exit listener rejects it with "Worker exited." |
| EndToEnd.WorkerStartsOnce | js/mod.js:366-369 | the worker starts the coordinator's file once: from its environment in fast mode, where the following init is ignored, else on the init |
| EndToEnd.LoadedModuleResolvesSpawn | js/mod.js:280-362 | the content envelope of a loaded module mirrors its tree and resolves the waiting spawn promise |
| EndToEnd.LoadFailureRejectsSpawn | js/mod.js:103-107 | a failed load exits with status 1, and its error event rejects the waiting spawn promise with the error's message |
| EndToEnd.CustomEventReachesCoordinator | js/mod.js:259-260 | a custom event sent by the worker is raised on the handle and changes nothing else |
| EndToEnd.CustomEventReachesWorker | js/mod.js:115-116 | an event sent by the corrected sendToWorker is raised in the worker and records no unhandled rejection; an `error` event that the worker has no `process` listener for is not raised, and leaves ERR_UNHANDLED_ERROR as an unhandled rejection |
| EndToEnd.SendToWorkerAsWrittenFails | js/mod.js:224 | sending a custom event to the worker throws a ReferenceError, where the corrected version sends |
| DocExample.DocumentedTree | js/mod.js:25-50 | the documented module's tree is exactly the documented one, with array elements keyed "0" and "1" |
| DocExample.DocumentedListStub | js/mod.js:39-42 | the second element of `default.list` becomes a stub calling the path default, list, 1 |
| DocExample.GetYSeesTheModule | examples.js/worker.js:44 | `getY` runs with the module as `this`, so the reply carries the JSON of its `y` |

## Left out

- Transport: the IPC channel is a FIFO of envelopes, one listener run at a time. Awaiting an async function and concurrent calls are not interleaved.
- Transport serialization: Node's cluster channel sends every envelope as JSON, so call arguments, the flattened error and event payloads arrive as their JSON round trip (`undefined` and functions in an array become `null`, and a property holding `undefined` is dropped). The model delivers envelopes unchanged, so its results hold as stated only for payloads that JSON represents exactly.
- EndToEnd.RemoteCallSettles: the callee receives `args` and the coordinator receives `ConvertErrorToPlainObj(e)` exactly as built; with the serialization above this is what arrives only when both are JSON-representable.
- Unhandled rejections: whether an unhandled rejection in the worker ends the process depends on Node's `--unhandled-rejections` mode. The model records the rejection in `unhandled`; the end of the process is the coordinator's separate `Exited` event. With `--unhandled-rejections=warn` the worker keeps running and the call stays pending.
- Module loading and `path.resolve`: the loaded module, or the error from loading it, is a parameter. So is whether loading registered a `process` listener for `error`; listeners registered later, and what any listener does, are not modelled.
- Dispatch.UnhandledErrorEvent: the message is `Unhandled error.` without the `util.inspect` rendering of the payload that Node appends, because `util.inspect` is not modelled. The `code` and `context` properties are exact.
- Function bodies: an exported function is an identity handed to a `Callee` parameter, which returns a value or throws an error object. Thrown non-Error values are not modelled.
- `crypto.randomBytes`: the correlation id is a parameter.
- Correlator.StubCall: requires a fresh 16-character id on a live handle. The source draws 96 random bits and does not check for a collision, which would overwrite an entry.
- JSON: `stringify` and `parse` are an abstract codec. EndToEnd.RemoteCallSettles states the resolved value only for values that survive the round trip. Neither function throwing (cycles, BigInt) is modelled.
- Respawn (js/mod.js:234-241): it spawns another process, so it is outside a single-handle model. `enableRespawn` is merged but not acted on.
- `runMaster`, debug logging, `console.error`, and the run-once global flag: these are module loading and side output.
- Floating point and NaN: numbers are integers.
- Property reads ignore the prototype chain, getters, `length` and string indexing. Reading a property of a non-container gives `undefined`.
- The stack trace of an error is only its first line, `name: message`.
- The protocol-violation error: the model records that the `message` listener threw and keeps the handle running. In Node the throw escapes the `message` emit as an uncaught exception, which ends the coordinator process by default. The lemmas about later events therefore over-approximate: they hold for a coordinator that survives the throw, and say nothing of one that does not.
- Correlator.SpawnState: `InitFailed(m)` keeps the `message` value `m`, not the text `'Could not initialize worker. ' + m` that the rejection carries. This holds wherever the spawn promise is rejected: Correlator.OnProcessError, Correlator.RaiseEvent for an `error` event, and so EndToEnd.LoadFailureRejectsSpawn.
- The cluster worker object's own members: the mirror starts empty in `Spawn`. Exports named like the handle's methods (`send`, `on`, …) would overwrite them, and this is not tracked.
- Lifecycle.Step: assumes that no `message` arrives after the `exit` event and that `exit` comes once, so a dead handle ignores both. Node does not promise this order: a `call-ret` that arrives after `exit` would settle a promise that exit already rejected. In JavaScript that second settle does nothing, but the model does not track it. Lifecycle.Step also assumes the worker uses `sendToMaster`, so no reserved event name arrives as an emit.
- Dispatch.WorkerOnMessage: an `emit` whose key is a reserved name is recorded as a raised event and nothing more. In Node, `process.emit('message', obj)` re-enters the worker's own `message` listeners: the call handler and, without fast mode, the `init` listener. So a call-shaped payload would be dispatched and answered. Other reserved names reach Node's own process listeners, for example `disconnect`. None of this is modelled. The corrected `sendToWorker` refuses those names, so a coordinator using it never sends them.
- Correlator.RaiseEvent: an emitted `exit` runs the exit listener, but an emitted `message` would re-enter the `message` listener with the payload as the envelope, and other reserved names would reach the cluster's own listeners. Neither is modelled: `sendToMaster` refuses those names, so a worker using it never sends them.

## Findings

| source | as written | input that shows it | evidently intended | confidence | as-written member | corrected member |
|---|---|---|---|---|---|---|
| js/mod.js:224 | `sendToWorker` sends through `reObj` with payload `msg`, and neither name is defined in its scope (the same holds at esm/mod.mjs:185) | `worker.sendToWorker('custom', 1)` throws `ReferenceError: reObj is not defined` | `retObj.send({ref, cmd: 'emit', key, obj: message})`, which the worker's listener raises as a local event | high; not executed | EndToEnd.SendToWorkerAsWrittenFails | EndToEnd.CustomEventReachesWorker |

=== FILE: correlator.dfy ===
/**
 * The coordinator side of `runWorker`: option merging, the worker handle, call stubs,
 * the `returnResolvers` correlation table, and the `message`, `exit` and `error` listeners.
 */
module Correlator {
  import opened Wrappers
  import opened JsValues
  import opened Errors
  import opened ExportMap
  import opened Protocol
  import opened Proxy

  // ---------------------------------------------------------------------------
  // Options

  /** `{...target, ...source}` for the source's own enumerable properties, in order. */
  function Spread(target: seq<Prop>, source: seq<Prop>): seq<Prop>
    decreases |source|
  {
    if source == [] then target else Spread(SetProp(target, source[0].key, source[0].val), source[1..])
  }

  /** After a spread, a key the source has takes the source's value; other keys keep the target's. */
  lemma {:induction false} SpreadLookup(target: seq<Prop>, source: seq<Prop>, k: string)
    requires DistinctKeys(source)
    ensures LookupProp(Spread(target, source), k) ==
      (if LookupProp(source, k).Some? then LookupProp(source, k) else LookupProp(target, k))
    decreases |source|
  {
    if source != [] {
      var t1 := SetProp(target, source[0].key, source[0].val);
      assert DistinctKeys(source[1..]) by {
        forall i, j | 0 <= i < j < |source[1..]| ensures source[1..][i].key != source[1..][j].key {
          assert source[1..][i] == source[i + 1] && source[1..][j] == source[j + 1];
        }
      }
      SpreadLookup(t1, source[1..], k);
      if k == source[0].key {
        assert LookupProp(source[1..], k).None? by {
          forall i | 0 <= i < |source[1..]| ensures source[1..][i].key != k {
            assert source[1..][i] == source[i + 1];
          }
        }
      }
    }
  }

  /**
   * `runWorker(file, useModeFast = true, enableRespawn = false)`'s option object: the
   * defaults apply to `undefined` arguments; an argument whose `typeof` is "object"
   * (an object, an array, `null`) is then spread over `{useModeFast, enableRespawn}`.
   */
  function MergeOptions(useModeFast: JsValue, enableRespawn: JsValue): (opts: seq<Prop>)
    ensures var u := if useModeFast == Undefined then Bool(true) else useModeFast;
      var e := if enableRespawn == Undefined then Bool(false) else enableRespawn;
      && (TypeOf(u) != "object" ==>
            forall k :: LookupProp(opts, k) ==
              (if k == "useModeFast" then Some(u) else if k == "enableRespawn" then Some(e) else None))
      && (TypeOf(u) == "object" && DistinctKeys(Enumerate(u)) ==>
            forall k :: LookupProp(opts, k) ==
              (if LookupProp(Enumerate(u), k).Some? then LookupProp(Enumerate(u), k)
               else if k == "useModeFast" then Some(u) else if k == "enableRespawn" then Some(e) else None))
  {
    var u := if useModeFast == Undefined then Bool(true) else useModeFast;
    var e := if enableRespawn == Undefined then Bool(false) else enableRespawn;
    var base := [Prop("useModeFast", u), Prop("enableRespawn", e)];
    assert forall k :: LookupProp(base, k) ==
                       (if k == "useModeFast" then Some(u) else if k == "enableRespawn" then Some(e) else None) by {
      assert "useModeFast"[0] != "enableRespawn"[0];
      forall k ensures LookupProp(base, k) ==
        (if k == "useModeFast" then Some(u) else if k == "enableRespawn" then Some(e) else None) {
        assert base[1..] == [Prop("enableRespawn", e)];
      }
    }
    if TypeOf(u) != "boolean" && TypeOf(u) == "object" then
      assert DistinctKeys(Enumerate(u)) ==> forall k :: LookupProp(Spread(base, Enumerate(u)), k) ==
                                                          (if LookupProp(Enumerate(u), k).Some? then LookupProp(Enumerate(u), k) else LookupProp(base, k)) by {
        if DistinctKeys(Enumerate(u)) {
          forall k ensures LookupProp(Spread(base, Enumerate(u)), k) ==
            (if LookupProp(Enumerate(u), k).Some? then LookupProp(Enumerate(u), k) else LookupProp(base, k)) {
            SpreadLookup(base, Enumerate(u), k);
          }
        }
      }
      Spread(base, Enumerate(u))
    else base
  }

  /** Whether the worker is forked with the module path in its environment. */
  predicate FastMode(opts: seq<Prop>)
  {
    Truthy(ReadProp(opts, "useModeFast"))
  }

  /** A boolean first argument decides the load strategy; `undefined` means fast mode. */
  lemma FastModeFromBoolean(b: bool, enableRespawn: JsValue)
    ensures FastMode(MergeOptions(Bool(b), enableRespawn)) == b
    ensures FastMode(MergeOptions(Undefined, enableRespawn))
    ensures ReadProp(MergeOptions(Bool(b), enableRespawn), "enableRespawn") ==
      (if enableRespawn == Undefined then Bool(false) else enableRespawn)
  {
    var e := if enableRespawn == Undefined then Bool(false) else enableRespawn;
    var opts := MergeOptions(Bool(b), enableRespawn);
    assert opts == [Prop("useModeFast", Bool(b)), Prop("enableRespawn", e)];
    assert "useModeFast" != "enableRespawn" by {
      assert "useModeFast"[0] != "enableRespawn"[0];
    }
    assert LookupProp(opts[1..], "enableRespawn") == Some(e);
  }

  /**
   * An options object decides by its own `useModeFast`; when it has none, the option
   * keeps the object itself, which is truthy, so the worker is forked in fast mode.
   * `null` is spread as nothing and leaves the falsy `null`.
   */
  lemma FastModeFromObject(ps: seq<Prop>, enableRespawn: JsValue)
    requires DistinctKeys(ps)
    ensures FastMode(MergeOptions(Obj(ps), enableRespawn)) ==
      (match LookupProp(ps, "useModeFast") case Some(x) => Truthy(x) case None => true)
    ensures !FastMode(MergeOptions(Null, enableRespawn))
  {
    var e := if enableRespawn == Undefined then Bool(false) else enableRespawn;
    var base := [Prop("useModeFast", Obj(ps)), Prop("enableRespawn", e)];
    assert MergeOptions(Obj(ps), enableRespawn) == Spread(base, ps);
    assert LookupProp(base, "useModeFast") == Some(Obj(ps));
    SpreadLookup(base, ps, "useModeFast");
    NullSpreadsNothing(enableRespawn);
  }

  /** `null` passes the `typeof` test but spreads no property, so `useModeFast` stays `null`. */
  lemma NullSpreadsNothing(enableRespawn: JsValue)
    ensures ReadProp(MergeOptions(Null, enableRespawn), "useModeFast") == Null
  {
    var e := if enableRespawn == Undefined then Bool(false) else enableRespawn;
    var base := [Prop("useModeFast", Null), Prop("enableRespawn", e)];
    assert Enumerate(Null) == [];
    assert MergeOptions(Null, enableRespawn) == Spread(base, []) == base;
  }

  // ---------------------------------------------------------------------------
  // The worker handle

  /** Why a stub call's promise was rejected: an `Error` instance or another value. */
  datatype Reason = ErrorReason(error: ErrorObj) | ValueReason(value: JsValue)

  /** A call of the `resolve` or `reject` of stub-call promise number `promise`. */
  datatype Settlement = Resolve(promise: nat, value: JsValue) | Reject(promise: nat, reason: Reason)

  /** One entry of `returnResolvers`: the correlation id and the promise its resolvers settle. */
  datatype PendingCall = PendingCall(id: string, promise: nat)

  /**
   * The promise `runWorker` returns. `InitFailed(m)` is the rejection with
   * `new Error('Could not initialize worker. ' + m)`; the model keeps `m`, not the
   * concatenated text.
   */
  datatype SpawnState = Waiting | Resolved | InitFailed(message: JsValue)

  /**
   * The coordinator's record of one forked worker. `pending` is `returnResolvers` in
   * insertion order (the order `Object.values` lists it: a 16-character id is never an
   * array index). `nextPromise` numbers the promises stub calls return.
   */
  datatype Handle = Handle(
    file: string,
    forkEnv: Option<string>,
    dead: bool,
    pending: seq<PendingCall>,
    nextPromise: nat,
    outbox: seq<Envelope>,
    settled: seq<Settlement>,
    raised: seq<Event>,
    mirror: Mirror,
    spawn: SpawnState)

  /**
   * `runWorker(file, useModeFast, enableRespawn)` up to its first send: fork (with the path
   * in the environment in fast mode), then one `init` envelope. The coordinator never sets
   * `worker_mode_fast`, so `init` is sent in both modes.
   */
  function Spawn(file: string, useModeFast: JsValue, enableRespawn: JsValue): (h: Handle)
    ensures h.outbox == [Envelope(REF, Init(file))]
    ensures h.forkEnv == (if FastMode(MergeOptions(useModeFast, enableRespawn)) then Some(file) else None)
    ensures !h.dead && h.pending == [] && h.settled == [] && h.nextPromise == 0 && h.spawn == Waiting
  {
    Handle(file, if FastMode(MergeOptions(useModeFast, enableRespawn)) then Some(file) else None,
           false, [], 0, [Envelope(REF, Init(file))], [], [], map[], Waiting)
  }

  /** The settle-once rule of the spawn promise. */
  function SettleSpawn(s: SpawnState, outcome: SpawnState): SpawnState
  {
    if s.Waiting? then outcome else s
  }

  /** `crypto.randomBytes(12).toString('base64')` is 16 characters long. */
  predicate IsCorrelationId(id: string)
  {
    |id| == 16
  }

  predicate HasId(ps: seq<PendingCall>, id: string)
  {
    exists i :: 0 <= i < |ps| && ps[i].id == id
  }

  /** The position of the entry for `id`. */
  function FindPending(ps: seq<PendingCall>, id: string): (r: Option<nat>)
    ensures r.None? <==> !HasId(ps, id)
    ensures r.Some? ==> r.value < |ps| && ps[r.value].id == id
  {
    if |ps| == 0 then None
    else if ps[0].id == id then Some(0)
    else match FindPending(ps[1..], id)
      case None =>
        assert !HasId(ps, id) by {
          forall i | 0 <= i < |ps| ensures ps[i].id != id {
            if i > 0 { assert ps[i] == ps[1..][i - 1]; }
          }
        }
        None
      case Some(j) =>
        assert ps[j + 1] == ps[1..][j];
        Some(j + 1)
  }

  function RemoveAt(ps: seq<PendingCall>, i: nat): (r: seq<PendingCall>)
    requires i < |ps|
    ensures |r| == |ps| - 1
    ensures forall j :: 0 <= j < i ==> r[j] == ps[j]
    ensures forall j :: i <= j < |r| ==> r[j] == ps[j + 1]
  {
    ps[..i] + ps[i + 1..]
  }

  /**
   * Invoking a stub bound to `path`. On a dead handle the promise is rejected at once with
   * the "not available" text and nothing is registered or sent; otherwise `id` (fresh: the
   * source draws it at random and never checks) is registered and one `call` is sent.
   */
  function StubCall(h: Handle, path: seq<string>, args: seq<JsValue>, id: string): (h': Handle)
    requires !h.dead ==> IsCorrelationId(id) && !HasId(h.pending, id)
    ensures h'.nextPromise == h.nextPromise + 1
    ensures h.dead ==>
      && h'.pending == h.pending && h'.outbox == h.outbox
      && h'.settled == h.settled + [Reject(h.nextPromise, ValueReason(Str("worker '" + h.file + "' not available")))]
    ensures !h.dead ==>
      && h'.pending == h.pending + [PendingCall(id, h.nextPromise)]
      && h'.outbox == h.outbox + [Envelope(REF, Call(id, path, args))]
      && h'.settled == h.settled
    ensures h'.dead == h.dead && h'.mirror == h.mirror && h'.spawn == h.spawn && h'.file == h.file
  {
    var p := h.nextPromise;
    if !h.dead then
      h.(pending := h.pending + [PendingCall(id, p)],
         nextPromise := p + 1,
         outbox := h.outbox + [Envelope(REF, Call(id, path, args))])
    else
      h.(nextPromise := p + 1,
         settled := h.settled + [Reject(p, ValueReason(Str("worker '" + h.file + "' not available")))])
  }

  /** What the listener did: the next state, and whether it threw. */
  datatype Reaction = Reaction(next: Handle, threw: bool)

  /** `msg.result ? JSON.parse(msg.result) : undefined`. */
  function DecodeResult(result: Option<string>, json: Json): JsValue
  {
    if result.Some? && result.value != "" then json.parse(result.value) else Undefined
  }

  /** The `exit` listener: reject every entry still in the table, in table order, without removing it. */
  function RejectAll(h: Handle): (h': Handle)
    ensures h'.pending == h.pending
    ensures |h'.settled| == |h.settled| + |h.pending| && h'.settled[..|h.settled|] == h.settled
    ensures forall i :: 0 <= i < |h.pending| ==>
      h'.settled[|h.settled| + i] == Reject(h.pending[i].promise, ErrorReason(NewError("Error", "Worker exited.")))
    ensures h'.dead == h.dead && h'.nextPromise == h.nextPromise && h'.outbox == h.outbox
    ensures h'.spawn == h.spawn && h'.mirror == h.mirror && h'.raised == h.raised && h'.file == h.file
  {
    var rejections := seq(|h.pending|, i requires 0 <= i < |h.pending| =>
      Reject(h.pending[i].promise, ErrorReason(NewError("Error", "Worker exited."))));
    h.(settled := h.settled + rejections)
  }

  /**
   * `retObj.emit(key, obj)`: the event is raised; the library's own listeners react to
   * `error` (reject the spawn promise, unless reading `message` throws, which the source
   * swallows) and to `exit` (reject every pending call).
   */
  function RaiseEvent(h: Handle, key: string, obj: JsValue): (h': Handle)
    ensures h'.raised == h.raised + [Event(key, obj)]
    ensures h'.dead == h.dead && h'.pending == h.pending && h'.nextPromise == h.nextPromise
    ensures h'.outbox == h.outbox && h'.mirror == h.mirror && h'.file == h.file
    ensures key == "error" ==>
      && h'.settled == h.settled
      && (h.spawn.Waiting? && !obj.Undefined? && !obj.Null? ==> h'.spawn == InitFailed(ReadProp(Enumerate(obj), "message")))
      && (!h.spawn.Waiting? || obj.Undefined? || obj.Null? ==> h'.spawn == h.spawn)
    ensures key == "exit" ==>
      && h'.spawn == h.spawn
      && |h'.settled| == |h.settled| + |h.pending| && h'.settled[..|h.settled|] == h.settled
      && forall i :: 0 <= i < |h.pending| ==>
           h'.settled[|h.settled| + i] == Reject(h.pending[i].promise, ErrorReason(NewError("Error", "Worker exited.")))
    ensures key != "error" && key != "exit" ==> h'.settled == h.settled && h'.spawn == h.spawn
  {
    var h1 := h.(raised := h.raised + [Event(key, obj)]);
    if key == "error" then
      (if obj.Undefined? || obj.Null? then h1
       else h1.(spawn := SettleSpawn(h.spawn, InitFailed(ReadProp(Enumerate(obj), "message")))))
    else if key == "exit" then RejectAll(h1)
    else h1
  }

  /**
   * The coordinator's `message` listener. Foreign envelopes are ignored. A `call-ret` with
   * a non-empty id throws when the id has no entry; otherwise the entry's promise is
   * rejected with a truthy `error`, or resolved with the decoded result, and the entry is
   * deleted. A `content` envelope is mapped onto the mirror and resolves the spawn promise.
   */
  function OnMessage(h: Handle, msg: Envelope, json: Json): (r: Reaction)
    ensures msg.ref != REF ==> r == Reaction(h, false)
    ensures r.threw <==> msg.ref == REF && msg.cmd.CallRet? && msg.cmd.id != "" && !HasId(h.pending, msg.cmd.id)
    ensures r.threw ==> r.next == h
    ensures msg.ref == REF && msg.cmd.CallRet? && msg.cmd.id != "" && HasId(h.pending, msg.cmd.id) ==>
      var i := FindPending(h.pending, msg.cmd.id).value;
      var p := h.pending[i].promise;
      && r.next.pending == RemoveAt(h.pending, i)
      && r.next.settled == h.settled +
           [if Truthy(msg.cmd.error) then Reject(p, ValueReason(msg.cmd.error)) else Resolve(p, DecodeResult(msg.cmd.result, json))]
      && r.next.outbox == h.outbox && r.next.dead == h.dead && r.next.nextPromise == h.nextPromise
    ensures msg.ref == REF && msg.cmd.CallRet? ==>
      r.next.mirror == h.mirror && r.next.spawn == h.spawn && r.next.raised == h.raised
    ensures msg.ref == REF && msg.cmd.Emit? ==> r == Reaction(RaiseEvent(h, msg.cmd.key, msg.cmd.obj), false)
    ensures msg.ref == REF && msg.cmd.Content? ==>
      && !r.threw && r.next.mirror == MapContent(h.mirror, msg.cmd.tree)
      && r.next.spawn == (if h.spawn.Waiting? then Resolved else h.spawn)
      && r.next.pending == h.pending && r.next.settled == h.settled && r.next.raised == h.raised
    ensures msg.ref == REF && (msg.cmd.Init? || msg.cmd.Call? || msg.cmd.OtherCommand?) ==> r == Reaction(h, false)
    ensures r.next.file == h.file && r.next.dead == h.dead && r.next.nextPromise == h.nextPromise && r.next.outbox == h.outbox
  {
    if msg.ref != REF then Reaction(h, false)
    else match msg.cmd
      case Emit(key, obj) => Reaction(RaiseEvent(h, key, obj), false)
      case CallRet(id, _, error, result) =>
        if id == "" then Reaction(h, false)
        else (match FindPending(h.pending, id)
          case None => Reaction(h, true)
          case Some(i) =>
            var p := h.pending[i].promise;
            var s := if Truthy(error) then Reject(p, ValueReason(error)) else Resolve(p, DecodeResult(result, json));
            Reaction(h.(settled := h.settled + [s], pending := RemoveAt(h.pending, i)), false))
      case Content(tree) =>
        Reaction(h.(mirror := MapContent(h.mirror, tree), spawn := SettleSpawn(h.spawn, Resolved)), false)
      case _ => Reaction(h, false)
  }

  /**
   * The process exited: `isDead()` now holds and the `exit` listener runs. The listener
   * only rejects the table's entries: the spawn promise, the mirror and the events stay
   * as they were, and nothing is sent.
   */
  function OnExit(h: Handle): (h': Handle)
    ensures h'.dead && h'.pending == h.pending && h'.nextPromise == h.nextPromise
    ensures h'.spawn == h.spawn && h'.outbox == h.outbox && h'.mirror == h.mirror
    ensures h'.raised == h.raised && h'.file == h.file
    ensures |h'.settled| == |h.settled| + |h.pending| && h'.settled[..|h.settled|] == h.settled
    ensures forall i :: 0 <= i < |h.pending| ==>
      h'.settled[|h.settled| + i] == Reject(h.pending[i].promise, ErrorReason(NewError("Error", "Worker exited.")))
  {
    RejectAll(h.(dead := true))
  }

  /** The cluster worker's `error` event: the spawn promise is rejected, if still waiting. */
  function OnProcessError(h: Handle, e: ErrorObj): (h': Handle)
    ensures h.spawn.Waiting? ==> h'.spawn == InitFailed(ReadProp(e.own, "message"))
    ensures !h.spawn.Waiting? ==> h'.spawn == h.spawn
    ensures h'.pending == h.pending && h'.settled == h.settled && h'.outbox == h.outbox
  {
    h.(spawn := SettleSpawn(h.spawn, InitFailed(ReadProp(e.own, "message"))))
  }

  /**
   * `retObj.sendToWorker(key, message)`: a reserved name throws the reserved-keyword
   * error; any other name reaches `reObj.send(...)`, and `reObj` is not defined, so a
   * ReferenceError is thrown. Nothing is ever sent.
   */
  function SendToWorker(h: Handle, key: string, message: JsValue): (r: Result<Handle, ErrorObj>)
    ensures r.Failure?
    ensures r.error == ReservedError(key) <==> IsReserved(key)
  {
    if IsReserved(key) then Failure(ReservedError(key))
    else
      var e := NewError("ReferenceError", "reObj is not defined");
      assert e != ReservedError(key) by {
        assert LookupProp(e.own, "message") != LookupProp(ReservedError(key).own, "message") by {
          assert ("reObj is not defined")[0] != ("'" + key + "' is a reserved message keyword")[0];
        }
      }
      Failure(e)
  }

  /**
   * `sendToWorker` as its comment describes it (`retObj.send` with the `message`
   * argument): a reserved name throws; any other name sends one `emit` to the worker.
   */
  function SendToWorkerIntended(h: Handle, key: string, message: JsValue): (r: Result<Handle, ErrorObj>)
    ensures r.Failure? <==> IsReserved(key)
    ensures r.Failure? ==> r.error == ReservedError(key)
    ensures r.Success? ==> r.value == h.(outbox := h.outbox + [Envelope(REF, Emit(key, message))])
  {
    if IsReserved(key) then Failure(ReservedError(key))
    else Success(h.(outbox := h.outbox + [Envelope(REF, Emit(key, message))]))
  }
}

=== FILE: dispatch.dfy ===
/**
 * The worker side (`_runWorkerHandler`): announcing the export tree, serving `call`
 * envelopes against the loaded module, re-raising `emit` envelopes, and `sendToMaster`.
 */
module Dispatch {
  import opened Wrappers
  import opened JsValues
  import opened Errors
  import opened ExportMap
  import opened Protocol

  /** What calling a function yields once awaited: a value, or a thrown error. */
  datatype Outcome = Returned(value: JsValue) | Threw(error: ErrorObj)

  /**
   * The module's own code, as an opaque parameter: `callee(f, this, args)` is what calling
   * function `f` with receiver `this` and arguments `args` yields (after `await`, for an
   * async function).
   */
  type Callee = (ObjectId, JsValue, seq<JsValue>) -> Outcome

  /** The TypeError of reading property `key` of `undefined` or `null`. */
  function ReadError(v: JsValue, key: string): ErrorObj
  {
    NewError("TypeError", "Cannot read properties of " + (if v.Null? then "null" else "undefined") + " (reading '" + key + "')")
  }

  /**
   * `v[key]`. Reading from `undefined` or `null` throws; a container yields its enumerated
   * property of that name; anything else yields `undefined`.
   */
  function GetProperty(v: JsValue, key: string): (r: Result<JsValue, ErrorObj>)
    ensures r.Failure? <==> v.Undefined? || v.Null?
    ensures forall i :: 0 <= i < |Enumerate(v)| && DistinctKeys(Enumerate(v)) && Enumerate(v)[i].key == key ==>
      r == Success(Enumerate(v)[i].val)
  {
    match v
    case Undefined => Failure(ReadError(v, key))
    case Null => Failure(ReadError(v, key))
    case _ =>
      forall i | 0 <= i < |Enumerate(v)| && DistinctKeys(Enumerate(v)) && Enumerate(v)[i].key == key
        ensures LookupProp(Enumerate(v), key) == Some(Enumerate(v)[i].val)
      {
        LookupPropAt(Enumerate(v), i);
      }
      Success(match LookupProp(Enumerate(v), key) case Some(x) => x case None => Undefined)
  }

  /** Where a walk along `functionPath` ends: the value found and its immediate parent. */
  datatype WalkResult = Reached(receiver: JsValue, target: JsValue) | WalkFailed(error: ErrorObj)

  /** The loop `fnLast = fn; fn = fn[fnPart]` from the state (`last`, `cur`). */
  function WalkFrom(last: JsValue, cur: JsValue, path: seq<string>): WalkResult
    decreases |path|
  {
    if path == [] then Reached(last, cur)
    else match GetProperty(cur, path[0])
      case Failure(e) => WalkFailed(e)
      case Success(next) => WalkFrom(cur, next, path[1..])
  }

  /** The walk from the loaded module, where `fn` and `fnLast` both start. */
  function Walk(exported: JsValue, path: seq<string>): WalkResult
  {
    WalkFrom(exported, exported, path)
  }

  /** Extending a path by one readable step makes the old target the new receiver. */
  lemma {:induction false} WalkExtend(last: JsValue, cur: JsValue, path: seq<string>, key: string)
    requires WalkFrom(last, cur, path).Reached?
    ensures var parent := WalkFrom(last, cur, path).target;
      WalkFrom(last, cur, path + [key]) ==
        match GetProperty(parent, key)
        case Failure(e) => WalkFailed(e)
        case Success(x) => Reached(parent, x)
    decreases |path|
  {
    if path == [] {
      assert path + [key] == [key];
    } else {
      assert (path + [key])[1..] == path[1..] + [key];
      var next := GetProperty(cur, path[0]).value;
      WalkExtend(cur, next, path[1..], key);
    }
  }

  /** A one-element path is invoked with the module itself as receiver. */
  lemma WalkOneStep(exported: JsValue, key: string)
    requires !exported.Undefined? && !exported.Null?
    ensures Walk(exported, [key]) == Reached(exported, GetProperty(exported, key).value)
  {
    assert [key][1..] == [];
    var next := GetProperty(exported, key).value;
    assert WalkFrom(exported, exported, [key]) == WalkFrom(exported, next, []);
  }

  /**
   * Walking the enumerated keys to address `a` of a well-formed module reaches the value
   * there, with the value at the parent address as receiver.
   */
  lemma {:induction false} WalkToAddr(last: JsValue, v: JsValue, a: seq<nat>)
    requires WellFormed(v) && ValueAddr(v, a) && a != []
    ensures ValueAddr(v, a[..|a| - 1])
      && WalkFrom(last, v, PathOf(v, a)) == Reached(ValueAt(v, a[..|a| - 1]), ValueAt(v, a))
    decreases |a|
  {
    var i, b := a[0], a[1..];
    var p := Enumerate(v)[i];
    ReadEnumerated(v, i);
    PathOfStep(v, a);
    ValueAtStep(v, a);
    WalkFirstStep(last, v, p.key, PathOf(p.val, b), p.val);
    if b != [] {
      WalkToAddr(v, p.val, b);
      DropLastOfCons(a);
      ValueAddrCons(v, i, b[..|b| - 1]);
    } else {
      assert a[..|a| - 1] == [];
    }
  }

  /** The value at a non-empty address is found inside the first child it names. */
  lemma ValueAtStep(v: JsValue, a: seq<nat>)
    requires ValueAddr(v, a) && a != []
    ensures a[0] < |Enumerate(v)| && ValueAddr(Enumerate(v)[a[0]].val, a[1..])
    ensures ValueAt(v, a) == ValueAt(Enumerate(v)[a[0]].val, a[1..])
  {
  }

  /** Dropping the last index of an address of length two or more keeps its first index. */
  lemma DropLastOfCons(a: seq<nat>)
    requires |a| >= 2
    ensures a[..|a| - 1] == [a[0]] + a[1..][..|a[1..]| - 1]
  {
    var r := [a[0]] + a[1..][..|a[1..]| - 1];
    assert |r| == |a| - 1;
    forall k | 0 <= k < |r| ensures r[k] == a[k] {
      if k > 0 { assert r[k] == a[1..][k - 1]; }
    }
  }

  /** An address one level down is an address of the value, reaching the same place. */
  lemma ValueAddrCons(v: JsValue, i: nat, c: seq<nat>)
    requires i < |Enumerate(v)| && ValueAddr(Enumerate(v)[i].val, c)
    ensures ValueAddr(v, [i] + c) && ValueAt(v, [i] + c) == ValueAt(Enumerate(v)[i].val, c)
  {
    assert ([i] + c)[0] == i && ([i] + c)[1..] == c;
  }

  /** Reading an enumerated key of a well-formed value yields its value, itself well-formed. */
  lemma ReadEnumerated(v: JsValue, i: nat)
    requires WellFormed(v) && i < |Enumerate(v)|
    ensures GetProperty(v, Enumerate(v)[i].key) == Success(Enumerate(v)[i].val)
    ensures WellFormed(Enumerate(v)[i].val)
  {
    var p := Enumerate(v)[i];
    assert DistinctKeys(Enumerate(v)) by {
      if v.Arr? { ArrayKeysDistinct(v); }
    }
    match v
    case Arr(es) => assert p.val == es[i];
    case Obj(props) =>
  }

  /** A walk whose first step reads `next` continues from `next`. */
  lemma WalkFirstStep(last: JsValue, cur: JsValue, key: string, rest: seq<string>, next: JsValue)
    requires GetProperty(cur, key) == Success(next)
    ensures WalkFrom(last, cur, [key] + rest) == WalkFrom(cur, next, rest)
  {
    assert ([key] + rest)[0] == key && ([key] + rest)[1..] == rest;
  }

  /** `parts.join(sep)`. */
  function Join(parts: seq<string>, sep: string): string
  {
    if |parts| == 0 then ""
    else if |parts| == 1 then parts[0]
    else parts[0] + sep + Join(parts[1..], sep)
  }

  /** The error thrown when the path leads to something that is neither a function nor a promise. */
  function NoFunctionError(file: string, path: seq<string>): ErrorObj
  {
    NewError("Error", "worker " + file + " has no function '" + Join(path, ".") + "'")
  }

  /** Calling `fn.apply` on a promise: a promise has no `apply`, so the call itself throws. */
  function PromiseApplyError(): ErrorObj
  {
    NewError("TypeError", "fn.apply is not a function")
  }

  /**
   * The `try` block: a function is applied to the receiver and arguments (awaited when it
   * is async); a promise throws because it has no `apply`; anything else throws the
   * "no function" error.
   */
  function Invoke(target: JsValue, receiver: JsValue, args: seq<JsValue>, file: string, path: seq<string>, callee: Callee): (o: Outcome)
    ensures (target.SyncFn? || target.AsyncFn?) ==> o == callee(target.fid, receiver, args)
    ensures target.PromiseObj? ==> o == Threw(PromiseApplyError())
    ensures !IsCallableValue(target) ==> o == Threw(NoFunctionError(file, path))
  {
    match target
    case SyncFn(f) => callee(f, receiver, args)
    case AsyncFn(f) => callee(f, receiver, args)
    case PromiseObj(_) => Threw(PromiseApplyError())
    case _ => Threw(NoFunctionError(file, path))
  }

  /** The `call-ret` envelope for an outcome: `error` is `null` or the flattened error; `result` is absent for `undefined`. */
  function CallReturn(id: string, path: seq<string>, o: Outcome, json: Json): (env: Envelope)
    ensures env.ref == REF && env.cmd.CallRet? && env.cmd.id == id && env.cmd.functionPath == path
    ensures Truthy(env.cmd.error) <==> o.Threw?
    ensures o.Threw? ==> env.cmd.error == ConvertErrorToPlainObj(o.error) && env.cmd.result == None
    ensures o.Returned? ==> env.cmd.result == (if o.value == Undefined then None else json.stringify(o.value))
  {
    match o
    case Returned(v) => Envelope(REF, CallRet(id, path, Null, if v != Undefined then json.stringify(v) else None))
    case Threw(e) => Envelope(REF, CallRet(id, path, ConvertErrorToPlainObj(e), None))
  }

  /**
   * Serving one `call`: walk the path, invoke, reply. The walk runs before the `try`
   * block, so a walk that throws escapes the handler with the walk's TypeError and no
   * reply is sent.
   */
  function DispatchCall(exported: JsValue, file: string, id: string, path: seq<string>, args: seq<JsValue>,
                        callee: Callee, json: Json): (r: Result<Envelope, ErrorObj>)
    ensures r.Failure? <==> Walk(exported, path).WalkFailed?
    ensures r.Failure? ==> r.error == Walk(exported, path).error
    ensures r.Success? ==> r.value.ref == REF && r.value.cmd.CallRet? && r.value.cmd.id == id && r.value.cmd.functionPath == path
    ensures r.Success? ==>
      var target, receiver := Walk(exported, path).target, Walk(exported, path).receiver;
      var called := target.SyncFn? || target.AsyncFn?;
      && (called && callee(target.fid, receiver, args).Returned? ==>
            && r.value.cmd.error == Null
            && r.value.cmd.result == (var v := callee(target.fid, receiver, args).value;
                                      if v == Undefined then None else json.stringify(v)))
      && (called && callee(target.fid, receiver, args).Threw? ==>
            r.value.cmd.error == ConvertErrorToPlainObj(callee(target.fid, receiver, args).error))
      && (target.PromiseObj? ==> r.value.cmd.error == ConvertErrorToPlainObj(PromiseApplyError()))
      && (!IsCallableValue(target) ==> r.value.cmd.error == ConvertErrorToPlainObj(NoFunctionError(file, path)))
      && (!(called && callee(target.fid, receiver, args).Returned?) ==> Truthy(r.value.cmd.error) && r.value.cmd.result == None)
  {
    match Walk(exported, path)
    case WalkFailed(e) => Failure(e)
    case Reached(receiver, target) => Success(CallReturn(id, path, Invoke(target, receiver, args, file, path, callee), json))
  }

  /**
   * A running worker: its module path, loaded module, whether anything registered a
   * `process` listener for `error`, sent envelopes, locally raised events, and the errors
   * that rejected the `async` message listener's promise, which nothing handles.
   */
  datatype WorkerProcess = WorkerProcess(file: string, exported: JsValue, errorListener: bool,
                                         outbox: seq<Envelope>, raised: seq<Event>, unhandled: seq<ErrorObj>)

  /**
   * What Node's `process.emit('error', obj)` throws when no `error` listener is registered
   * and `obj` is not an `Error` instance, which a payload that crossed the channel as JSON
   * never is: an `ERR_UNHANDLED_ERROR` whose `context` is `obj`. Node appends the
   * `util.inspect` rendering of `obj` to the message; that rendering is not modelled.
   */
  function UnhandledErrorEvent(obj: JsValue): (e: ErrorObj)
    ensures WellFormedError(e)
    ensures LookupProp(e.own, "code") == Some(Str("ERR_UNHANDLED_ERROR"))
    ensures LookupProp(e.own, "context") == Some(obj)
  {
    var ps := [Prop("stack", Str("Error [ERR_UNHANDLED_ERROR]: Unhandled error.")),
               Prop("message", Str("Unhandled error.")),
               Prop("code", Str("ERR_UNHANDLED_ERROR")),
               Prop("context", obj)];
    assert LookupProp(ps, "code") == LookupProp(ps[1..], "code") == LookupProp(ps[2..], "code");
    assert LookupProp(ps, "context") == LookupProp(ps[1..], "context") == LookupProp(ps[2..], "context")
        == LookupProp(ps[3..], "context");
    ErrorObj(ps)
  }

  /**
   * The worker's `message` listener: foreign envelopes are ignored, `emit` is re-raised
   * locally, `call` is dispatched, anything else is ignored. The listener is `async`, so
   * whatever it throws rejects its promise and is recorded as unhandled: the walk's
   * TypeError for a path that cannot be walked, and Node's unhandled-`error` error for an
   * `emit` of `error` that no listener receives.
   */
  function WorkerOnMessage(w: WorkerProcess, msg: Envelope, callee: Callee, json: Json): (w': WorkerProcess)
    ensures w'.file == w.file && w'.exported == w.exported && w'.errorListener == w.errorListener
    ensures msg.ref != REF ==> w' == w
    ensures msg.ref == REF && msg.cmd.Emit? && (msg.cmd.key != "error" || w.errorListener) ==>
      w' == w.(raised := w.raised + [Event(msg.cmd.key, msg.cmd.obj)])
    ensures msg.ref == REF && msg.cmd.Emit? && msg.cmd.key == "error" && !w.errorListener ==>
      w' == w.(unhandled := w.unhandled + [UnhandledErrorEvent(msg.cmd.obj)])
    ensures msg.ref == REF && msg.cmd.Call? ==>
      && w'.raised == w.raised
      && (Walk(w.exported, msg.cmd.functionPath).Reached? ==>
            && w'.unhandled == w.unhandled && |w'.outbox| == |w.outbox| + 1 && w'.outbox[..|w.outbox|] == w.outbox)
      && (Walk(w.exported, msg.cmd.functionPath).WalkFailed? ==>
            w'.outbox == w.outbox && w'.unhandled == w.unhandled + [Walk(w.exported, msg.cmd.functionPath).error])
    ensures !msg.cmd.Emit? && !msg.cmd.Call? ==> w' == w
  {
    if msg.ref != REF then w
    else match msg.cmd
      case Emit(key, obj) =>
        if key == "error" && !w.errorListener then w.(unhandled := w.unhandled + [UnhandledErrorEvent(obj)])
        else w.(raised := w.raised + [Event(key, obj)])
      case Call(id, path, args) =>
        (match DispatchCall(w.exported, w.file, id, path, args, callee, json)
         case Success(reply) => w.(outbox := w.outbox + [reply])
         case Failure(e) => w.(unhandled := w.unhandled + [e]))
      case _ => w
  }

  /**
   * `sendToMaster(key, msg)`: a reserved name throws before anything is sent; any other
   * name sends one `emit` envelope.
   */
  function SendToMaster(outbox: seq<Envelope>, key: string, msg: JsValue): (r: Result<seq<Envelope>, ErrorObj>)
    ensures r.Failure? <==> IsReserved(key)
    ensures r.Failure? ==> r.error == ReservedError(key)
    ensures r.Success? ==> r.value == outbox + [Envelope(REF, Emit(key, msg))]
  {
    if IsReserved(key) then Failure(ReservedError(key))
    else Success(outbox + [Envelope(REF, Emit(key, msg))])
  }

  /** The worker after its bootstrap: serving calls, or reporting a load failure and exiting. */
  datatype Boot = Serving(worker: WorkerProcess) | LoadFailed(outbox: seq<Envelope>, exitCode: int)

  /**
   * `_runWorkerHandler(file)` given the outcome of loading the module, and whether loading
   * it registered a `process` listener for `error`: on failure the flattened error goes out
   * as an `error` event and the process exits with status 1; on success exactly one
   * `content` envelope carries the module's export tree.
   */
  function Bootstrap(file: string, loaded: Result<JsValue, ErrorObj>, errorListener: bool): (b: Boot)
    ensures loaded.Failure? ==>
      b == LoadFailed([Envelope(REF, Emit("error", ConvertErrorToPlainObj(loaded.error)))], 1)
    ensures loaded.Success? ==>
      b == Serving(WorkerProcess(file, loaded.value, errorListener, [Envelope(REF, Content(BuildMap(loaded.value, None)))], [], []))
  {
    match loaded
    case Failure(e) =>
      var report := Envelope(REF, Emit("error", ConvertErrorToPlainObj(e)));
      assert !IsReserved("error");
      assert SendToMaster([], "error", ConvertErrorToPlainObj(e)).value == [] + [report] == [report];
      LoadFailed(SendToMaster([], "error", ConvertErrorToPlainObj(e)).value, 1)
    case Success(exported) =>
      Serving(WorkerProcess(file, exported, errorListener, [Envelope(REF, Content(BuildMap(exported, None)))], [], []))
  }

  /** How the worker process starts the handler. */
  datatype Entry = LoadNow(file: string) | AwaitInit

  /**
   * The worker's entry code: a non-empty `workerJsFile` in the environment starts the
   * handler at once (fast mode); otherwise the worker listens for `init`.
   */
  function WorkerEntry(env: Option<string>): (e: Entry)
    ensures e.LoadNow? <==> env.Some? && env.value != ""
    ensures e.LoadNow? ==> e.file == env.value
  {
    if env.Some? && env.value != "" then LoadNow(env.value) else AwaitInit
  }

  /**
   * The worker's entry listener (non-fast mode): an `init` envelope of this library with
   * a non-empty path asks the worker to load that path.
   */
  function InitRequest(msg: Envelope): (r: Option<string>)
    ensures r.Some? <==> msg.ref == REF && msg.cmd.Init? && msg.cmd.workerJsFile != ""
    ensures r.Some? ==> r.value == msg.cmd.workerJsFile
  {
    if msg.ref == REF && msg.cmd.Init? && msg.cmd.workerJsFile != "" then Some(msg.cmd.workerJsFile) else None
  }
}

=== FILE: doc_example.dfy ===
/**
 * The export tree shown in the documentation of `buildMap`, and the call `worker.getY()`
 * of the example worker, worked through the model.
 */
module DocExample {
  import opened Wrappers
  import opened JsValues
  import opened ExportMap
  import opened Protocol
  import opened Proxy
  import opened Dispatch
  import EndToEnd

  /** The `default` export of the documented module, for any identity `f` of its first function. */
  function DefaultExport(f: ObjectId): JsValue
  {
    Obj([
      Prop("action1", AsyncFn(f)), Prop("action2", SyncFn(f + 1)), Prop("action3", PromiseObj(f + 2)),
      Prop("namespace", Obj([Prop("sub1", SyncFn(f + 3))])),
      Prop("list", Arr([SyncFn(f + 4), SyncFn(f + 5)])),
      Prop("x", Number(1)), Prop("y", Str("abc")), Prop("z", Bool(true)), Prop("v1", Null),
      Prop("exit", SyncFn(f + 6)), Prop("error", SyncFn(f + 7))])
  }

  function DocModule(f: ObjectId): JsValue
  {
    Obj([Prop("default", DefaultExport(f)), Prop("test", SyncFn(f + 8)), Prop("z", Str("z"))])
  }

  function Leaf(kind: NodeType, key: string): ExportNode
  {
    ExportNode(kind, Some(key), [])
  }

  const ListNode: ExportNode := ExportNode(ArrayType, Some("list"), [Leaf(FunctionType, "0"), Leaf(FunctionType, "1")])

  const NamespaceNode: ExportNode := ExportNode(ObjectType, Some("namespace"), [Leaf(FunctionType, "sub1")])

  const DefaultNode: ExportNode :=
    ExportNode(ObjectType, Some("default"), [
      Leaf(AsyncFunctionType, "action1"), Leaf(FunctionType, "action2"), Leaf(PromiseType, "action3"),
      NamespaceNode, ListNode,
      Leaf(TypeofType("number"), "x"), Leaf(TypeofType("string"), "y"), Leaf(TypeofType("boolean"), "z"),
      Leaf(NullType, "v1"), Leaf(FunctionType, "exit"), Leaf(FunctionType, "error")])

  /** A value without enumerable properties becomes a leaf of its kind. */
  lemma LeafTree(v: JsValue, key: string, kind: NodeType)
    requires !IsContainer(v) && kind == BuildMap(v, Some(key)).kind
    ensures BuildMap(v, Some(key)) == Leaf(kind, key)
  {
  }

  lemma FunctionLeaf(fid: ObjectId, key: string)
    ensures BuildMap(SyncFn(fid), Some(key)) == Leaf(FunctionType, key)
  {
  }

  /** A primitive other than null becomes a leaf carrying its typeof tag. */
  lemma PrimitiveLeaf(v: JsValue, key: string)
    requires !IsContainer(v) && !IsCallableValue(v) && !v.Null?
    ensures BuildMap(v, Some(key)) == Leaf(TypeofType(TypeOf(v)), key)
  {
  }

  lemma ListTree(f: ObjectId)
    ensures BuildMap(Arr([SyncFn(f + 4), SyncFn(f + 5)]), Some("list")) == ListNode
  {
    var v := Arr([SyncFn(f + 4), SyncFn(f + 5)]);
    var n := BuildMap(v, Some("list"));
    assert IndexKey(0) == "0" && IndexKey(1) == "1";
    BuildMapChild(v, Some("list"), 0);
    BuildMapChild(v, Some("list"), 1);
    assert n.children == ListNode.children;
  }

  lemma NamespaceTree(f: ObjectId)
    ensures BuildMap(Obj([Prop("sub1", SyncFn(f + 3))]), Some("namespace")) == NamespaceNode
  {
    BuildMapChild(Obj([Prop("sub1", SyncFn(f + 3))]), Some("namespace"), 0);
  }

  /** An object's tree is its kind and key over the trees of its properties, in order. */
  lemma ObjectTree(ps: seq<Prop>, key: Option<string>, kids: seq<ExportNode>)
    requires |kids| == |ps| && forall i :: 0 <= i < |ps| ==> kids[i] == BuildMap(ps[i].val, Some(ps[i].key))
    ensures BuildMap(Obj(ps), key) == ExportNode(ObjectType, key, kids)
  {
    var n := BuildMap(Obj(ps), key);
    forall i | 0 <= i < |ps| ensures n.children[i] == kids[i] {
      BuildMapChild(Obj(ps), key, i);
    }
  }

  lemma DefaultKidsLow(f: ObjectId)
    ensures forall i :: 0 <= i < 5 ==>
      DefaultNode.children[i] == BuildMap(DefaultExport(f).props[i].val, Some(DefaultExport(f).props[i].key))
  {
    LeafTree(AsyncFn(f), "action1", AsyncFunctionType);
    FunctionLeaf(f + 1, "action2");
    LeafTree(PromiseObj(f + 2), "action3", PromiseType);
    NamespaceTree(f);
    ListTree(f);
  }

  lemma DefaultKidsHigh(f: ObjectId)
    ensures forall i :: 5 <= i < 11 ==>
      DefaultNode.children[i] == BuildMap(DefaultExport(f).props[i].val, Some(DefaultExport(f).props[i].key))
  {
    PrimitiveLeaf(Number(1), "x");
    PrimitiveLeaf(Str("abc"), "y");
    PrimitiveLeaf(Bool(true), "z");
    LeafTree(Null, "v1", NullType);
    FunctionLeaf(f + 6, "exit");
    FunctionLeaf(f + 7, "error");
  }

  lemma DefaultTree(f: ObjectId)
    ensures BuildMap(DefaultExport(f), Some("default")) == DefaultNode
  {
    DefaultKidsLow(f);
    DefaultKidsHigh(f);
    ObjectTree(DefaultExport(f).props, Some("default"), DefaultNode.children);
  }

  /** The documented tree: array elements are keyed by their decimal index. */
  lemma DocumentedTree(f: ObjectId)
    ensures BuildMap(DocModule(f), None) ==
      ExportNode(ObjectType, None, [DefaultNode, Leaf(FunctionType, "test"), Leaf(TypeofType("string"), "z")])
  {
    DefaultTree(f);
    FunctionLeaf(f + 8, "test");
    PrimitiveLeaf(Str("z"), "z");
    ObjectTree(DocModule(f).props, None, [DefaultNode, Leaf(FunctionType, "test"), Leaf(TypeofType("string"), "z")]);
  }

  /** Keys that a function numbers by their position are distinct. */
  lemma DistinctByPosition(ps: seq<Prop>, position: string -> int)
    requires forall i :: 0 <= i < |ps| ==> position(ps[i].key) == i
    ensures DistinctKeys(ps)
  {
  }

  function DefaultKeyPosition(k: string): int
  {
    if k == "action1" then 0 else if k == "action2" then 1 else if k == "action3" then 2
    else if k == "namespace" then 3 else if k == "list" then 4 else if k == "x" then 5
    else if k == "y" then 6 else if k == "z" then 7 else if k == "v1" then 8
    else if k == "exit" then 9 else 10
  }

  lemma DefaultKeysDistinct(f: ObjectId)
    ensures DistinctKeys(DefaultExport(f).props)
  {
    var ps := DefaultExport(f).props;
    forall i | 0 <= i < |ps| ensures DefaultKeyPosition(ps[i].key) == i {
    }
    DistinctByPosition(ps, DefaultKeyPosition);
  }

  lemma DefaultWellFormed(f: ObjectId)
    ensures WellFormed(DefaultExport(f))
  {
    var d := DefaultExport(f);
    DefaultKeysDistinct(f);
    assert WellFormed(d.props[3].val) && WellFormed(d.props[4].val);
  }

  lemma DefaultNamedKeys(f: ObjectId)
    ensures NamedKeys(DefaultExport(f))
  {
    var d := DefaultExport(f);
    assert NamedKeys(d.props[3].val) && NamedKeys(d.props[4].val);
  }

  lemma DocModuleWellFormed(f: ObjectId)
    ensures WellFormed(DocModule(f)) && NamedKeys(DocModule(f))
  {
    DefaultWellFormed(f);
    DefaultNamedKeys(f);
  }

  /** In the mirror, the second element of `default.list` is a stub calling path default/list/1. */
  lemma DocumentedListStub(f: ObjectId)
    ensures var p := ["default", "list", "1"];
      p in MapContent(map[], BuildMap(DocModule(f), None)) && MapContent(map[], BuildMap(DocModule(f), None))[p] == Stub(p)
  {
    assert IndexKey(1) == "1";
    var a := [0, 4, 1];
    assert ValueAt(DocModule(f), a) == SyncFn(f + 5);
    assert PathOf(DocModule(f), a) == ["default", "list", "1"];
    DocModuleWellFormed(f);
    EndToEnd.EveryExportMirrored(DocModule(f), map[], a);
  }

  /** The example worker: `getY` returns `this.y`. */
  const ExampleModule: JsValue := Obj([Prop("y", Str("abc")), Prop("getY", SyncFn(0))])

  function ExampleCallee(fid: ObjectId, receiver: JsValue, args: seq<JsValue>): Outcome
  {
    if fid == 0 then
      match GetProperty(receiver, "y")
      case Success(v) => Returned(v)
      case Failure(e) => Threw(e)
    else Returned(Undefined)
  }

  /** `worker.getY()`: the top-level function runs with the module as `this`, so it sees `y`. */
  lemma GetYSeesTheModule(file: string, id: string, json: Json)
    ensures var r := DispatchCall(ExampleModule, file, id, ["getY"], [], ExampleCallee, json);
      r.Success? && !Truthy(r.value.cmd.error) && r.value.cmd.result == json.stringify(Str("abc"))
  {
    WalkOneStep(ExampleModule, "getY");
    assert GetProperty(ExampleModule, "getY") == Success(SyncFn(0));
    assert GetProperty(ExampleModule, "y") == Success(Str("abc"));
  }
}

=== FILE: end_to_end.dfy ===
/**
 * Properties that span both processes: the mirror the coordinator builds from the
 * worker's `content` tree, and the round trip of one remote call.
 */
module EndToEnd {
  import opened Wrappers
  import opened JsValues
  import opened Errors
  import opened ExportMap
  import opened Protocol
  import opened Proxy
  import opened Dispatch
  import opened Correlator

  // ---------------------------------------------------------------------------
  // Mirror soundness and completeness against the module the worker loaded.

  /**
   * Every stub the mapper assigns for a module's export tree names a path that the
   * worker's walk resolves: to a callable export, with the object holding it as receiver.
   * The stub's path is exactly the sequence of keys leading to that export.
   */
  lemma StubPathResolves(v: JsValue, j: nat) returns (a: seq<nat>)
    requires WellFormed(v) && NamedKeys(v)
    requires j < |Mapper(BuildMap(v, None), [])| && Mapper(BuildMap(v, None), [])[j].entry.Stub?
    ensures a != [] && ValueAddr(v, a) && ValueAddr(v, a[..|a| - 1])
    ensures Mapper(BuildMap(v, None), [])[j] == Assign(PathOf(v, a), Stub(PathOf(v, a)))
    ensures IsCallableValue(ValueAt(v, a))
    ensures Walk(v, PathOf(v, a)) == Reached(ValueAt(v, a[..|a| - 1]), ValueAt(v, a))
  {
    var tree := BuildMap(v, None);
    a := MapperOrigin(tree, [], j);
    BuildMapAt(v, None, a);
    var node := NodeAt(tree, a);
    assert node == BuildMap(ValueAt(v, a), KeyAt(v, None, a));
    assert a != [];
    NamedPath(v, a);
    assert Location(tree, [], a) == PathOf(v, a);
    assert IsCallableKind(node.kind);
    CallableClassification(ValueAt(v, a), KeyAt(v, None, a));
    WalkToAddr(v, v, a);
  }

  /** The same for the mirror as a whole: every stub in it was put there by the mapper. */
  lemma MirrorStubResolves(v: JsValue, q: seq<string>) returns (a: seq<nat>)
    requires WellFormed(v) && NamedKeys(v)
    requires q in MapContent(map[], BuildMap(v, None)) && MapContent(map[], BuildMap(v, None))[q].Stub?
    ensures a != [] && ValueAddr(v, a) && ValueAddr(v, a[..|a| - 1])
    ensures q == PathOf(v, a) && MapContent(map[], BuildMap(v, None))[q] == Stub(q)
    ensures IsCallableValue(ValueAt(v, a))
    ensures Walk(v, q) == Reached(ValueAt(v, a[..|a| - 1]), ValueAt(v, a))
  {
    var log := Mapper(BuildMap(v, None), []);
    ApplyAllOrigin(map[], log, q);
    var e := MapContent(map[], BuildMap(v, None))[q];
    var j :| 0 <= j < |log| && log[j] == Assign(q, e);
    a := StubPathResolves(v, j);
  }

  /** A module whose only export is an object stored under the empty key. */
  function EmptyKeyModule(f: ObjectId): JsValue
  {
    Obj([Prop("", Obj([Prop("fn", SyncFn(f))]))])
  }

  /**
   * The key-naming condition above is needed: an export object stored under the empty
   * key is skipped by the mapper's truthiness test, so the function inside it gets a
   * stub for the path without that key, which the worker walks to `undefined`, and the
   * call is answered with the "has no function" error.
   */
  lemma EmptyKeyStubMisses(f: ObjectId, file: string, id: string, args: seq<JsValue>, callee: Callee, json: Json)
    ensures Mapper(BuildMap(EmptyKeyModule(f), None), []) == [Assign(["fn"], Stub(["fn"]))]
    ensures DispatchCall(EmptyKeyModule(f), file, id, ["fn"], args, callee, json) ==
      Success(CallReturn(id, ["fn"], Threw(NoFunctionError(file, ["fn"])), json))
  {
    EmptyKeyMapper(f);
    var v := EmptyKeyModule(f);
    assert GetProperty(v, "fn") == Success(Undefined);
    assert ["fn"][1..] == [];
    assert Walk(v, ["fn"]) == Reached(v, Undefined);
  }

  /** The mapper drops the empty key from the stub's path. */
  lemma EmptyKeyMapper(f: ObjectId)
    ensures Mapper(BuildMap(EmptyKeyModule(f), None), []) == [Assign(["fn"], Stub(["fn"]))]
  {
    var inner := Obj([Prop("fn", SyncFn(f))]);
    var leaf := BuildMap(SyncFn(f), Some("fn"));
    var mid := BuildMap(inner, Some(""));
    var root := BuildMap(EmptyKeyModule(f), None);
    assert leaf == ExportNode(FunctionType, Some("fn"), []);
    assert mid.children == [leaf];
    assert root.children == [mid];
    assert KeyTruthy(Some("fn")) && !KeyTruthy(Some("")) && !KeyTruthy(None);
    assert TruthyKey(Some("fn")) == ["fn"] && [] + ["fn"] == ["fn"];
    MapperLeaf(leaf, []);
    assert Mapper(leaf, []) == [Assign(["fn"], Stub(["fn"]))];
    assert [] + TruthyKey(Some("")) == [] && [] + TruthyKey(None) == [];
    assert MapChildren(mid, 1, []) == [] && MapChildren(root, 1, []) == [];
    MapperContainer(mid, []);
    assert MapChildren(mid, 0, []) == Mapper(leaf, []) + MapChildren(mid, 1, []);
    assert Mapper(mid, []) == Mapper(leaf, []);
    MapperContainer(root, []);
    assert MapChildren(root, 0, []) == Mapper(mid, []) + MapChildren(root, 1, []);
  }

  /**
   * Every callable export below the module root gets a stub at its own key path, and
   * every array or object export gets its mirror container, whatever the mirror held before.
   */
  lemma EveryExportMirrored(v: JsValue, m: Mirror, a: seq<nat>)
    requires WellFormed(v) && NamedKeys(v) && ValueAddr(v, a) && a != []
    ensures var mirror, p, x := MapContent(m, BuildMap(v, None)), PathOf(v, a), ValueAt(v, a);
      && (IsCallableValue(x) ==> p in mirror && mirror[p] == Stub(p))
      && (x.Arr? ==> p in mirror && mirror[p] == ArrayMirror)
      && (x.Obj? ==> p in mirror && mirror[p] == ObjectMirror)
  {
    var tree := BuildMap(v, None);
    var x := ValueAt(v, a);
    BuildMapNice(v, None);
    BuildMapAt(v, None, a);
    NamedPath(v, a);
    assert Location(tree, [], a) == PathOf(v, a);
    CallableClassification(x, KeyAt(v, None, a));
    if IsCallableValue(x) || x.Arr? || x.Obj? {
      MapperKeepsEntry(tree, [], m, a);
    }
  }

  // ---------------------------------------------------------------------------
  // One remote call, from the stub to the settled promise.

  /**
   * A stub call on a live handle sends one `call`; the worker answers it when the path
   * resolves, and the coordinator settles exactly the new promise: resolved with the
   * callee's value when that value survives the JSON round trip (or is `undefined`),
   * rejected with the flattened error when the call throws. Other calls stay pending.
   */
  lemma RemoteCallSettles(h: Handle, w: WorkerProcess, path: seq<string>, args: seq<JsValue>, id: string,
                          callee: Callee, json: Json)
    requires !h.dead && IsCorrelationId(id) && !HasId(h.pending, id)
    requires Walk(w.exported, path).Reached?
    ensures var h1 := StubCall(h, path, args, id);
      var call := Envelope(REF, Call(id, path, args));
      var w1 := WorkerOnMessage(w, call, callee, json);
      var receiver, target := Walk(w.exported, path).receiver, Walk(w.exported, path).target;
      var o := Invoke(target, receiver, args, w.file, path, callee);
      var reply := CallReturn(id, path, o, json);
      var r := OnMessage(h1, reply, json);
      var p := h.nextPromise;
      && h1.outbox == h.outbox + [call]
      && w1.outbox == w.outbox + [reply]
      && !r.threw && r.next.pending == h.pending
      && (o.Returned? && (o.value == Undefined || RoundTrips(json, o.value)) ==>
            r.next.settled == h.settled + [Resolve(p, o.value)])
      && (o.Threw? ==> r.next.settled == h.settled + [Reject(p, ValueReason(ConvertErrorToPlainObj(o.error)))])
      && (o.Threw? && WellFormedError(o.error) ==>
            r.next.settled == h.settled + [Reject(p, ValueReason(Obj(o.error.own)))])
  {
    var h1 := StubCall(h, path, args, id);
    var call := Envelope(REF, Call(id, path, args));
    var receiver, target := Walk(w.exported, path).receiver, Walk(w.exported, path).target;
    var o := Invoke(target, receiver, args, w.file, path, callee);
    var reply := CallReturn(id, path, o, json);
    assert DispatchCall(w.exported, w.file, id, path, args, callee, json) == Success(reply);
    var w1 := WorkerOnMessage(w, call, callee, json);
    assert w1.outbox == w.outbox + [reply];
    var i := |h.pending|;
    assert h1.pending[i].id == id;
    assert HasId(h1.pending, id);
    var k := FindPending(h1.pending, id).value;
    assert k == i by {
      assert forall j :: 0 <= j < |h.pending| ==> h1.pending[j] == h.pending[j];
    }
    assert RemoveAt(h1.pending, i) == h.pending by {
      assert h1.pending[..i] == h.pending;
    }
  }

  /**
   * A path the worker cannot walk (a step reads a property of `undefined` or `null`)
   * throws in the worker's `async` listener before its `try` block: no reply is sent, and
   * the TypeError rejects the listener's promise, which nothing handles. The new promise
   * stays pending until the worker exits; the exit listener then rejects it.
   */
  lemma UnresolvablePathCrashesWorker(h: Handle, w: WorkerProcess, path: seq<string>, args: seq<JsValue>, id: string,
                                      callee: Callee, json: Json)
    requires !h.dead && IsCorrelationId(id) && !HasId(h.pending, id)
    requires Walk(w.exported, path).WalkFailed?
    ensures var h1 := StubCall(h, path, args, id);
      var call := Envelope(REF, Call(id, path, args));
      var w1 := WorkerOnMessage(w, call, callee, json);
      && h1.outbox == h.outbox + [call]
      && w1.outbox == w.outbox && w1.unhandled == w.unhandled + [Walk(w.exported, path).error]
      && PendingCall(id, h.nextPromise) in h1.pending && h1.settled == h.settled
      && Reject(h.nextPromise, ErrorReason(NewError("Error", "Worker exited."))) in OnExit(h1).settled
  {
    var h1 := StubCall(h, path, args, id);
    var i := |h.pending|;
    assert h1.pending[i] == PendingCall(id, h.nextPromise);
    assert OnExit(h1).settled[|h1.settled| + i] == Reject(h.nextPromise, ErrorReason(NewError("Error", "Worker exited.")));
  }

  // ---------------------------------------------------------------------------
  // Start-up.

  /**
   * The worker starts the handler for the coordinator's file exactly once: in fast mode
   * from its environment, the `init` that follows reaching only the running handler,
   * which ignores it; otherwise on that `init`.
   */
  lemma WorkerStartsOnce(file: string, useModeFast: JsValue, enableRespawn: JsValue,
                         w: WorkerProcess, callee: Callee, json: Json)
    requires file != ""
    ensures var h := Spawn(file, useModeFast, enableRespawn);
      var entry := WorkerEntry(h.forkEnv);
      && (FastMode(MergeOptions(useModeFast, enableRespawn)) ==>
            entry == LoadNow(file) && WorkerOnMessage(w, h.outbox[0], callee, json) == w)
      && (!FastMode(MergeOptions(useModeFast, enableRespawn)) ==>
            entry == AwaitInit && InitRequest(h.outbox[0]) == Some(file))
  {
  }

  /**
   * A module that loads sends its export tree; the coordinator mirrors it and resolves
   * the spawn promise, if it was still waiting.
   */
  lemma LoadedModuleResolvesSpawn(h: Handle, file: string, v: JsValue, errorListener: bool, json: Json)
    requires h.spawn.Waiting?
    ensures var b := Bootstrap(file, Success(v), errorListener);
      var r := OnMessage(h, b.worker.outbox[0], json);
      && !r.threw && r.next.spawn == Resolved
      && r.next.mirror == MapContent(h.mirror, BuildMap(v, None))
      && r.next.pending == h.pending && r.next.settled == h.settled
  {
  }

  /**
   * A module that fails to load reports the flattened error as an `error` event and
   * exits with status 1; the coordinator rejects the spawn promise with the error's message.
   */
  lemma LoadFailureRejectsSpawn(h: Handle, file: string, e: ErrorObj, errorListener: bool, json: Json)
    requires h.spawn.Waiting?
    ensures var b := Bootstrap(file, Failure(e), errorListener);
      var r := OnMessage(h, b.outbox[0], json);
      && b.exitCode == 1
      && !r.threw && r.next.spawn == InitFailed(ReadProp(e.own, "message"))
      && r.next.pending == h.pending && r.next.settled == h.settled
  {
    var plain := ConvertErrorToPlainObj(e);
    var b := Bootstrap(file, Failure(e), errorListener);
    assert b.outbox[0] == Envelope(REF, Emit("error", plain));
    EmitRaisesEvent(h, "error", plain, json);
    PlainMessage(e);
    ErrorEventSettlesSpawn(h, plain);
  }

  /** A well-addressed `emit` envelope raises its event on the handle and never throws. */
  lemma EmitRaisesEvent(h: Handle, key: string, obj: JsValue, json: Json)
    ensures OnMessage(h, Envelope(REF, Emit(key, obj)), json) == Reaction(RaiseEvent(h, key, obj), false)
  {
  }

  /** The flattened error is an object whose enumerable `message` is the error's own message. */
  lemma PlainMessage(e: ErrorObj)
    ensures ConvertErrorToPlainObj(e).Obj?
    ensures ReadProp(Enumerate(ConvertErrorToPlainObj(e)), "message") == ReadProp(e.own, "message")
  {
    var plain := ConvertErrorToPlainObj(e);
    assert Enumerate(plain) == plain.props;
    assert LookupProp(plain.props, "message") == LookupProp(e.own, "message");
  }

  /** An `error` event carrying an object rejects a waiting spawn promise with its `message`. */
  lemma ErrorEventSettlesSpawn(h: Handle, obj: JsValue)
    requires h.spawn.Waiting? && obj.Obj?
    ensures var h' := RaiseEvent(h, "error", obj);
      && h'.spawn == InitFailed(ReadProp(Enumerate(obj), "message"))
      && h'.pending == h.pending && h'.settled == h.settled
  {
  }

  // ---------------------------------------------------------------------------
  // Custom events.

  /** A custom event the worker sends through `sendToMaster` is raised on the handle. */
  lemma CustomEventReachesCoordinator(h: Handle, key: string, obj: JsValue, json: Json)
    requires !IsReserved(key) && key != "error"
    ensures var sent := SendToMaster([], key, obj);
      && sent.Success? && |sent.value| == 1
      && OnMessage(h, sent.value[0], json) == Reaction(h.(raised := h.raised + [Event(key, obj)]), false)
  {
    assert key != "exit" by { assert ReservedNames[1] == "exit"; }
  }

  /**
   * The corrected `sendToWorker` delivers its event to the worker, which raises it; an
   * `error` event that no `process` listener receives makes Node's `emit` throw instead,
   * and that throw becomes an unhandled rejection of the worker's listener.
   */
  lemma CustomEventReachesWorker(h: Handle, w: WorkerProcess, key: string, message: JsValue, callee: Callee, json: Json)
    requires !IsReserved(key)
    ensures var sent := SendToWorkerIntended(h, key, message);
      && sent.Success?
      && var w1 := WorkerOnMessage(w, sent.value.outbox[|sent.value.outbox| - 1], callee, json);
      && (key != "error" || w.errorListener ==>
            w1.raised == w.raised + [Event(key, message)] && w1.unhandled == w.unhandled)
      && (key == "error" && !w.errorListener ==>
            w1.raised == w.raised && w1.unhandled == w.unhandled + [UnhandledErrorEvent(message)])
  {
  }

  /** As written, the same call never sends anything: it throws a ReferenceError. */
  lemma SendToWorkerAsWrittenFails(h: Handle)
    ensures SendToWorker(h, "custom", Number(1)) == Failure(NewError("ReferenceError", "reObj is not defined"))
    ensures SendToWorkerIntended(h, "custom", Number(1)).Success?
  {
  }
}

=== FILE: errors.dfy ===
/** Thrown errors and their flattening into plain, transmissible objects. */
module Errors {
  import opened Wrappers
  import opened JsValues

  /**
   * A thrown error object, described by its own properties (names and values) in the
   * order `Object.getOwnPropertyNames` lists them. A real object never has two own
   * properties of one name; `WellFormedError` says so.
   */
  datatype ErrorObj = ErrorObj(own: seq<Prop>)

  predicate WellFormedError(e: ErrorObj)
  {
    DistinctKeys(e.own)
  }

  /**
   * `new <name>(message)`: own properties `stack` and `message`. Only the first line of
   * the stack text is modelled.
   */
  function NewError(name: string, message: string): (e: ErrorObj)
    ensures WellFormedError(e)
    ensures LookupProp(e.own, "message") == Some(Str(message))
  {
    ErrorObj([Prop("stack", Str(name + ": " + message)), Prop("message", Str(message))])
  }

  /** Whether some own property among the first `n` is named `k`. */
  predicate CopiedBy(e: ErrorObj, n: nat, k: string)
    requires n <= |e.own|
  {
    LookupProp(e.own[..n], k).Some?
  }

  /** The plain object after the first `n` own properties have been copied onto `{}`. */
  function CopyOwn(e: ErrorObj, n: nat): (ps: seq<Prop>)
    requires n <= |e.own|
    ensures forall k :: LookupProp(ps, k) == (if CopiedBy(e, n, k) then LookupProp(e.own, k) else None)
    ensures WellFormedError(e) ==> ps == e.own[..n]
  {
    if n == 0 then []
    else
      var prev := CopyOwn(e, n - 1);
      var key := e.own[n - 1].key;
      CopyStep(e, n, prev);
      SetProp(prev, key, ReadProp(e.own, key))
  }

  /** Copying the n-th own property extends what the first n - 1 copies established. */
  lemma CopyStep(e: ErrorObj, n: nat, prev: seq<Prop>)
    requires 0 < n <= |e.own|
    requires forall k :: LookupProp(prev, k) == (if CopiedBy(e, n - 1, k) then LookupProp(e.own, k) else None)
    requires WellFormedError(e) ==> prev == e.own[..n - 1]
    ensures var r := SetProp(prev, e.own[n - 1].key, ReadProp(e.own, e.own[n - 1].key));
      && (forall k :: LookupProp(r, k) == (if CopiedBy(e, n, k) then LookupProp(e.own, k) else None))
      && (WellFormedError(e) ==> r == e.own[..n])
  {
    var key := e.own[n - 1].key;
    assert e.own[..n] == e.own[..n - 1] + [e.own[n - 1]];
    LookupAppend(e.own[..n - 1], e.own[n - 1]);
    assert LookupProp(e.own, key).Some? by {
      assert e.own[n - 1].key == key;
    }
    if WellFormedError(e) {
      LookupPropAt(e.own, n - 1);
      assert LookupProp(e.own[..n - 1], key).None? by {
        var pre := e.own[..n - 1];
        forall j | 0 <= j < |pre| ensures pre[j].key != key {
          assert pre[j] == e.own[j];
        }
      }
    }
  }

  /** Looking up in `ps + [p]` finds `ps`'s value first, then `p`'s. */
  lemma {:induction false} LookupAppend(ps: seq<Prop>, p: Prop)
    ensures forall k :: LookupProp(ps + [p], k) == (if LookupProp(ps, k).Some? then LookupProp(ps, k) else if k == p.key then Some(p.val) else None)
  {
    if |ps| > 0 {
      assert (ps + [p])[1..] == ps[1..] + [p];
      LookupAppend(ps[1..], p);
    } else {
      assert (ps + [p])[1..] == [];
    }
  }

  /**
   * `convertErrorToPlainObj`: a plain object carrying the error's own properties
   * (including the non-enumerable `message` and `stack`) with the error's values.
   */
  function ConvertErrorToPlainObj(e: ErrorObj): (r: JsValue)
    ensures r.Obj?
    ensures forall k :: LookupProp(r.props, k) == LookupProp(e.own, k)
    ensures WellFormedError(e) ==> r.props == e.own
  {
    assert e.own[..|e.own|] == e.own;
    Obj(CopyOwn(e, |e.own|))
  }
}

=== FILE: export_map.dfy ===
/**
 * The export-tree builder (`buildMap`): a tagged description of a module's exported
 * surface, sent once by the worker in its `content` message.
 */
module ExportMap {
  import opened Wrappers
  import opened JsValues

  /** The `type` field of a tree node; `TypeofType` carries a `typeof` result. */
  datatype NodeType =
    | FunctionType
    | AsyncFunctionType
    | PromiseType
    | ArrayType
    | ObjectType
    | NullType
    | TypeofType(tag: string)

  /** `{type, key, children}`; leaves carry no children. The root's key is `undefined` (None). */
  datatype ExportNode = ExportNode(kind: NodeType, key: Option<string>, children: seq<ExportNode>)

  predicate IsCallableKind(k: NodeType)
  {
    k == FunctionType || k == AsyncFunctionType || k == PromiseType
  }

  predicate IsCallableValue(v: JsValue)
  {
    v.SyncFn? || v.AsyncFn? || v.PromiseObj?
  }

  /**
   * `buildMap(obj, _key)`: the `instanceof` tests in the source's order, then arrays, then
   * other objects, then null, then the `typeof` tag. Containers get one child per
   * enumerated key, in enumeration order, keyed by that key.
   */
  function BuildMap(v: JsValue, key: Option<string>): (n: ExportNode)
    ensures n.key == key
    ensures (n.kind == FunctionType) == v.SyncFn?
    ensures (n.kind == AsyncFunctionType) == v.AsyncFn?
    ensures (n.kind == PromiseType) == v.PromiseObj?
    ensures (n.kind == ArrayType) == v.Arr?
    ensures (n.kind == ObjectType) == v.Obj?
    ensures (n.kind == NullType) == v.Null?
    ensures n.kind.TypeofType? ==> n.kind.tag == TypeOf(v) && n.kind.tag != "object"
    ensures |n.children| == |Enumerate(v)|
    ensures forall i :: 0 <= i < |n.children| ==> n.children[i].key == Some(Enumerate(v)[i].key)
  {
    match v
    case SyncFn(_) => ExportNode(FunctionType, key, [])
    case AsyncFn(_) => ExportNode(AsyncFunctionType, key, [])
    case PromiseObj(_) => ExportNode(PromiseType, key, [])
    case Arr(es) =>
      ExportNode(ArrayType, key, seq(|es|, i requires 0 <= i < |es| => BuildMap(es[i], Some(IndexKey(i)))))
    case Obj(ps) =>
      ExportNode(ObjectType, key, seq(|ps|, i requires 0 <= i < |ps| => BuildMap(ps[i].val, Some(ps[i].key))))
    case Null => ExportNode(NullType, key, [])
    case _ => ExportNode(TypeofType(TypeOf(v)), key, [])
  }

  /** The i-th child of a container's node is the node built from its i-th enumerated property. */
  lemma BuildMapChild(v: JsValue, key: Option<string>, i: nat)
    requires i < |Enumerate(v)|
    ensures BuildMap(v, key).children[i] == BuildMap(Enumerate(v)[i].val, Some(Enumerate(v)[i].key))
  {
  }

  /** A node is classified callable exactly when the value is a function or a promise. */
  lemma CallableClassification(v: JsValue, key: Option<string>)
    ensures IsCallableKind(BuildMap(v, key).kind) <==> IsCallableValue(v)
  {
  }

  // ---------------------------------------------------------------------------
  // Addresses: a position in a tree or value, as the sequence of child indices.

  predicate ValidAddr(n: ExportNode, a: seq<nat>)
    decreases |a|
  {
    a == [] || (a[0] < |n.children| && ValidAddr(n.children[a[0]], a[1..]))
  }

  function NodeAt(n: ExportNode, a: seq<nat>): ExportNode
    requires ValidAddr(n, a)
    decreases |a|
  {
    if a == [] then n else NodeAt(n.children[a[0]], a[1..])
  }

  /** `[k]` when the key is truthy, `[]` otherwise: what `if (obj.key)` adds to a path. */
  function TruthyKey(k: Option<string>): seq<string>
  {
    if KeyTruthy(k) then [k.value] else []
  }

  /** The truthy keys of the nodes strictly below `n` on the way to address `a`. */
  function KeysAlong(n: ExportNode, a: seq<nat>): seq<string>
    requires ValidAddr(n, a)
    decreases |a|
  {
    if a == [] then []
    else TruthyKey(n.children[a[0]].key) + KeysAlong(n.children[a[0]], a[1..])
  }

  predicate ValueAddr(v: JsValue, a: seq<nat>)
    decreases |a|
  {
    a == [] || (a[0] < |Enumerate(v)| && ValueAddr(Enumerate(v)[a[0]].val, a[1..]))
  }

  function ValueAt(v: JsValue, a: seq<nat>): JsValue
    requires ValueAddr(v, a)
    decreases |a|
  {
    if a == [] then v else ValueAt(Enumerate(v)[a[0]].val, a[1..])
  }

  /** The enumerated keys on the way to address `a`. */
  function PathOf(v: JsValue, a: seq<nat>): (p: seq<string>)
    requires ValueAddr(v, a)
    ensures |p| == |a|
    decreases |a|
  {
    if a == [] then [] else [Enumerate(v)[a[0]].key] + PathOf(Enumerate(v)[a[0]].val, a[1..])
  }

  /** The key `buildMap` gives the node at address `a` when the root's key is `key`. */
  function KeyAt(v: JsValue, key: Option<string>, a: seq<nat>): Option<string>
    requires ValueAddr(v, a)
  {
    if a == [] then key else Some(PathOf(v, a)[|a| - 1])
  }

  /** The keys of `p` that are not "". */
  function NonEmpty(p: seq<string>): seq<string>
  {
    if p == [] then [] else (if p[0] != "" then [p[0]] else []) + NonEmpty(p[1..])
  }

  /** An address is valid in the tree exactly when it is valid in the value. */
  lemma {:induction false} BuildMapAddr(v: JsValue, key: Option<string>, a: seq<nat>)
    ensures ValidAddr(BuildMap(v, key), a) <==> ValueAddr(v, a)
    decreases |a|
  {
    if a != [] && a[0] < |Enumerate(v)| {
      var p := Enumerate(v)[a[0]];
      BuildMapChild(v, key, a[0]);
      BuildMapAddr(p.val, Some(p.key), a[1..]);
    }
  }

  /** The key path to a non-root address: the first key, then the path inside that child. */
  lemma PathOfStep(v: JsValue, a: seq<nat>)
    requires ValueAddr(v, a) && a != []
    ensures PathOf(v, a) == [Enumerate(v)[a[0]].key] + PathOf(Enumerate(v)[a[0]].val, a[1..])
    ensures a[1..] != [] ==> PathOf(v, a)[|a| - 1] == PathOf(Enumerate(v)[a[0]].val, a[1..])[|a[1..]| - 1]
  {
  }

  /**
   * Addresses of a value and of its tree coincide; the node found is the one built from
   * the value found, and the truthy keys on the way are the non-empty enumerated keys.
   */
  lemma {:induction false} BuildMapAt(v: JsValue, key: Option<string>, a: seq<nat>)
    ensures ValidAddr(BuildMap(v, key), a) <==> ValueAddr(v, a)
    ensures ValueAddr(v, a) ==>
      && NodeAt(BuildMap(v, key), a) == BuildMap(ValueAt(v, a), KeyAt(v, key, a))
      && KeysAlong(BuildMap(v, key), a) == NonEmpty(PathOf(v, a))
    decreases |a|
  {
    BuildMapAddr(v, key, a);
    if a != [] && ValueAddr(v, a) {
      var p := Enumerate(v)[a[0]];
      BuildMapChild(v, key, a[0]);
      BuildMapAt(p.val, Some(p.key), a[1..]);
      PathOfStep(v, a);
    }
  }

  /** Every value has non-empty keys throughout, so no key is dropped from a path. */
  lemma {:induction false} NamedPath(v: JsValue, a: seq<nat>)
    requires NamedKeys(v) && ValueAddr(v, a)
    ensures NonEmpty(PathOf(v, a)) == PathOf(v, a)
    decreases |a|
  {
    if a != [] {
      var p := Enumerate(v)[a[0]];
      assert p.key != "" && NamedKeys(p.val);
      NamedPath(p.val, a[1..]);
    }
  }

  /**
   * A tree whose every non-root node has a non-empty key, whose siblings have distinct
   * keys, and whose leaves have no children: what `buildMap` gives for a value with
   * distinct, non-empty property names.
   */
  predicate NiceTree(n: ExportNode)
  {
    && (n.kind != ArrayType && n.kind != ObjectType ==> n.children == [])
    && (forall i :: 0 <= i < |n.children| ==> KeyTruthy(n.children[i].key) && NiceTree(n.children[i]))
    && (forall i, j :: 0 <= i < j < |n.children| ==> n.children[i].key != n.children[j].key)
  }

  lemma {:induction false} BuildMapNice(v: JsValue, key: Option<string>)
    requires WellFormed(v) && NamedKeys(v)
    ensures NiceTree(BuildMap(v, key))
  {
    var n := BuildMap(v, key);
    var ps := Enumerate(v);
    match v
    case Arr(es) =>
      ArrayKeysDistinct(v);
      forall i | 0 <= i < |n.children|
        ensures KeyTruthy(n.children[i].key) && NiceTree(n.children[i])
      {
        BuildMapNice(es[i], Some(IndexKey(i)));
      }
      forall i, j | 0 <= i < j < |n.children|
        ensures n.children[i].key != n.children[j].key
      {
        assert ps[i].key != ps[j].key;
      }
    case Obj(props) =>
      forall i | 0 <= i < |n.children|
        ensures KeyTruthy(n.children[i].key) && NiceTree(n.children[i])
      {
        assert props[i] in props;
        BuildMapNice(props[i].val, Some(props[i].key));
      }
      forall i, j | 0 <= i < j < |n.children|
        ensures n.children[i].key != n.children[j].key
      {
        assert ps[i].key != ps[j].key;
      }
    case _ =>
  }
}

=== FILE: js_values.dfy ===
/**
 * The JavaScript values a worker module can export, as an inductive datatype.
 * Being inductive, a value cannot contain itself, which rules out the cyclic
 * export graphs the library does not guard against.
 */
module JsValues {
  import opened Wrappers

  /** Identity of a function or promise object; the abstract callee is keyed by it. */
  type ObjectId = nat

  datatype JsValue =
    | Undefined
    | Null
    | Bool(b: bool)
    | Number(n: int)
    | BigInt(i: int)
    | Str(s: string)
    | Symbol(description: string)
    | SyncFn(fid: ObjectId)      // an instance of Function that is not an AsyncFunction
    | AsyncFn(fid: ObjectId)     // an instance of AsyncFunction
    | PromiseObj(pid: ObjectId)  // an instance of Promise
    | Arr(elems: seq<JsValue>)   // a dense array without extra properties
    | Obj(props: seq<Prop>)      // any other object; props in for..in order

  /** One enumerated property: its key and its value. */
  datatype Prop = Prop(key: string, val: JsValue)

  /** JavaScript's `typeof` operator. */
  function TypeOf(v: JsValue): string
  {
    match v
    case Undefined => "undefined"
    case Bool(_) => "boolean"
    case Number(_) => "number"
    case BigInt(_) => "bigint"
    case Str(_) => "string"
    case Symbol(_) => "symbol"
    case SyncFn(_) => "function"
    case AsyncFn(_) => "function"
    case _ => "object"
  }

  /** JavaScript's truthiness (NaN is not modelled: numbers are integers). */
  predicate Truthy(v: JsValue)
  {
    match v
    case Undefined => false
    case Null => false
    case Bool(b) => b
    case Number(n) => n != 0
    case BigInt(i) => i != 0
    case Str(s) => s != ""
    case _ => true
  }

  /** Truthiness of a string that may be absent (`undefined`). */
  predicate KeyTruthy(k: Option<string>)
  {
    k.Some? && k.value != ""
  }

  /** The decimal digit for `d`. */
  function Digit(d: nat): char
    requires d < 10
  {
    (48 + d) as char
  }

  /** The canonical decimal string of an array index, as `for..in` yields it. */
  function IndexKey(i: nat): (s: string)
    ensures |s| >= 1
    ensures (|s| == 1) == (i < 10)
  {
    if i < 10 then [Digit(i)] else IndexKey(i / 10) + [Digit(i % 10)]
  }

  /** Distinct indices have distinct keys, so an array's enumerated keys never collide. */
  lemma {:induction false} IndexKeyInjective(i: nat, j: nat)
    requires IndexKey(i) == IndexKey(j)
    ensures i == j
  {
    if i >= 10 {
      var si, sj := IndexKey(i), IndexKey(j);
      assert j >= 10;
      assert si[|si| - 1] == Digit(i % 10) && sj[|sj| - 1] == Digit(j % 10);
      assert si[..|si| - 1] == IndexKey(i / 10);
      assert sj[..|sj| - 1] == IndexKey(j / 10);
      IndexKeyInjective(i / 10, j / 10);
    } else {
      assert j < 10;
    }
  }

  predicate IsContainer(v: JsValue)
  {
    v.Arr? || v.Obj?
  }

  /** The `for..in` enumeration of a container: index keys for an array, the properties for an object. */
  function Enumerate(v: JsValue): (ps: seq<Prop>)
    ensures v.Arr? ==> |ps| == |v.elems|
    ensures v.Obj? ==> ps == v.props
    ensures !IsContainer(v) ==> ps == []
  {
    match v
    case Arr(es) => seq(|es|, i requires 0 <= i < |es| => Prop(IndexKey(i), es[i]))
    case Obj(ps) => ps
    case _ => []
  }

  predicate DistinctKeys(ps: seq<Prop>)
  {
    forall i, j :: 0 <= i < j < |ps| ==> ps[i].key != ps[j].key
  }

  /** The value of the first property named `key`, or None when there is none. */
  function LookupProp(ps: seq<Prop>, key: string): (r: Option<JsValue>)
    ensures r.None? <==> forall i :: 0 <= i < |ps| ==> ps[i].key != key
  {
    if |ps| == 0 then None
    else if ps[0].key == key then Some(ps[0].val)
    else LookupProp(ps[1..], key)
  }

  /** `obj[key]` read from a property list: the first value named `key`, `undefined` when none is. */
  function ReadProp(ps: seq<Prop>, key: string): JsValue
  {
    match LookupProp(ps, key)
    case Some(v) => v
    case None => Undefined
  }

  /** With distinct keys, looking up the i-th key finds the i-th value. */
  lemma {:induction false} LookupPropAt(ps: seq<Prop>, i: nat)
    requires i < |ps| && DistinctKeys(ps)
    ensures LookupProp(ps, ps[i].key) == Some(ps[i].val)
  {
    if i > 0 {
      assert ps[0].key != ps[i].key;
      assert ps[1..][i - 1] == ps[i];
      LookupPropAt(ps[1..], i - 1);
    }
  }

  /** Every key an array enumerates is distinct. */
  lemma ArrayKeysDistinct(v: JsValue)
    requires v.Arr?
    ensures DistinctKeys(Enumerate(v))
  {
    var ps := Enumerate(v);
    forall i, j | 0 <= i < j < |ps|
      ensures ps[i].key != ps[j].key
    {
      if ps[i].key == ps[j].key {
        IndexKeyInjective(i, j);
      }
    }
  }

  /** A value every object of which has distinct keys, as every real JavaScript object does. */
  predicate WellFormed(v: JsValue)
  {
    match v
    case Arr(es) => forall i :: 0 <= i < |es| ==> WellFormed(es[i])
    case Obj(ps) => DistinctKeys(ps) && forall i :: 0 <= i < |ps| ==> WellFormed(ps[i].val)
    case _ => true
  }

  /** No object anywhere in the value has the property name "". */
  predicate NamedKeys(v: JsValue)
  {
    match v
    case Arr(es) => forall i :: 0 <= i < |es| ==> NamedKeys(es[i])
    case Obj(ps) => forall i :: 0 <= i < |ps| ==> ps[i].key != "" && NamedKeys(ps[i].val)
    case _ => true
  }

  /** A property assignment `o[key] = val`: an existing key keeps its place, a new one is appended. */
  function SetProp(ps: seq<Prop>, key: string, val: JsValue): (r: seq<Prop>)
    ensures LookupProp(r, key) == Some(val)
    ensures forall k :: k != key ==> LookupProp(r, k) == LookupProp(ps, k)
    ensures LookupProp(ps, key).Some? ==> |r| == |ps|
    ensures LookupProp(ps, key).None? ==> r == ps + [Prop(key, val)]
  {
    if |ps| == 0 then [Prop(key, val)]
    else if ps[0].key == key then [Prop(key, val)] + ps[1..]
    else [ps[0]] + SetProp(ps[1..], key, val)
  }
}

=== FILE: lifecycle.dfy ===
/**
 * The worker handle as a state machine over the events the coordinator sees, and the
 * invariant of its correlation table: ids are unique, every stub-call promise is
 * either awaiting its reply or settled, and none is settled twice.
 */
module Lifecycle {
  import opened Wrappers
  import opened JsValues
  import opened Errors
  import opened Protocol
  import opened Correlator

  datatype CoordinatorEvent =
    | Invoke(path: seq<string>, args: seq<JsValue>, id: string)  // a stub is called; `id` is the random draw
    | Receive(msg: Envelope)                                     // the worker's `message` event
    | Exited                                                     // the worker's `exit` event
    | ProcessFailed(error: ErrorObj)                             // the worker's `error` event

  /** The worker side sends custom events only through `sendToMaster`, which refuses reserved names. */
  predicate Conforming(msg: Envelope)
  {
    msg.ref == REF && msg.cmd.Emit? ==> !IsReserved(msg.cmd.key)
  }

  predicate Allowed(h: Handle, ev: CoordinatorEvent)
  {
    match ev
    case Invoke(_, _, id) => !h.dead ==> IsCorrelationId(id) && !HasId(h.pending, id)
    case Receive(msg) => Conforming(msg)
    case _ => true
  }

  /**
   * One event. A process that has exited delivers no further `message` and no second
   * `exit`, so those are no-ops on a dead handle; everything else is the listener's effect.
   */
  function Step(h: Handle, ev: CoordinatorEvent, json: Json): Reaction
    requires Allowed(h, ev)
  {
    match ev
    case Invoke(path, args, id) => Reaction(StubCall(h, path, args, id), false)
    case Receive(msg) => if h.dead then Reaction(h, false) else OnMessage(h, msg, json)
    case Exited => Reaction(if h.dead then h else OnExit(h), false)
    case ProcessFailed(e) => Reaction(OnProcessError(h, e), false)
  }

  function SettledSet(log: seq<Settlement>): set<nat>
  {
    set i | 0 <= i < |log| :: log[i].promise
  }

  function PendingSet(ps: seq<PendingCall>): set<nat>
  {
    set i | 0 <= i < |ps| :: ps[i].promise
  }

  predicate UniqueEntries(ps: seq<PendingCall>)
  {
    forall i, j :: 0 <= i < j < |ps| ==> ps[i].id != ps[j].id && ps[i].promise != ps[j].promise
  }

  predicate SettledAtMostOnce(log: seq<Settlement>)
  {
    forall i, j :: 0 <= i < j < |log| ==> log[i].promise != log[j].promise
  }

  /**
   * The correlation table `ps`, the settlements `log` and the promise counter `next`:
   * unique ids of the generated length, unique promises, every promise below the counter
   * either pending or settled, none settled twice, while the worker lives no pending
   * promise settled, and once it has exited every promise settled.
   */
  predicate TableInv(ps: seq<PendingCall>, log: seq<Settlement>, next: nat, dead: bool)
  {
    && UniqueEntries(ps)
    && (forall i :: 0 <= i < |ps| ==> IsCorrelationId(ps[i].id) && ps[i].promise < next)
    && (forall i :: 0 <= i < |log| ==> log[i].promise < next)
    && SettledAtMostOnce(log)
    && (!dead ==> forall i :: 0 <= i < |ps| ==> ps[i].promise !in SettledSet(log))
    && (forall p :: 0 <= p < next ==> p in PendingSet(ps) || p in SettledSet(log))
    && (dead ==> forall p :: 0 <= p < next ==> p in SettledSet(log))
  }

  predicate Inv(h: Handle)
  {
    TableInv(h.pending, h.settled, h.nextPromise, h.dead)
  }

  lemma SpawnEstablishesInv(file: string, useModeFast: JsValue, enableRespawn: JsValue)
    ensures Inv(Spawn(file, useModeFast, enableRespawn))
  {
  }

  lemma SettledAppend(log: seq<Settlement>, extra: seq<Settlement>)
    ensures SettledSet(log + extra) == SettledSet(log) + SettledSet(extra)
  {
    var l := log + extra;
    forall p | p in SettledSet(l) ensures p in SettledSet(log) + SettledSet(extra) {
      var i :| 0 <= i < |l| && l[i].promise == p;
      if i >= |log| { assert extra[i - |log|] == l[i]; }
    }
    forall p | p in SettledSet(log) + SettledSet(extra) ensures p in SettledSet(l) {
      if p in SettledSet(log) {
        var i :| 0 <= i < |log| && log[i].promise == p;
        assert l[i] == log[i];
      } else {
        var i :| 0 <= i < |extra| && extra[i].promise == p;
        assert l[|log| + i] == extra[i];
      }
    }
  }

  lemma StubCallPreservesInv(h: Handle, path: seq<string>, args: seq<JsValue>, id: string)
    requires Inv(h) && (!h.dead ==> IsCorrelationId(id) && !HasId(h.pending, id))
    ensures Inv(StubCall(h, path, args, id))
  {
    if h.dead {
      DeadStubCallPreservesInv(h, path, args, id);
    } else {
      LiveStubCallPreservesInv(h, path, args, id);
    }
  }

  /** On a dead handle the new promise is rejected at once, so it is settled like every other. */
  lemma DeadStubCallPreservesInv(h: Handle, path: seq<string>, args: seq<JsValue>, id: string)
    requires Inv(h) && h.dead
    ensures Inv(StubCall(h, path, args, id))
  {
    var h' := StubCall(h, path, args, id);
    var p := h.nextPromise;
    var s := h'.settled[|h.settled|];
    assert h'.settled == h.settled + [s] && s.promise == p;
    SettledAppend(h.settled, [s]);
    assert [s][0].promise == p;
    assert SettledSet([s]) == {p};
    assert p !in SettledSet(h.settled);
    forall q | 0 <= q < h'.nextPromise ensures q in SettledSet(h'.settled) {
      if q < p { assert q in SettledSet(h.settled); }
    }
  }

  /** On a live handle the fresh id joins the table with the new, unsettled promise. */
  lemma LiveStubCallPreservesInv(h: Handle, path: seq<string>, args: seq<JsValue>, id: string)
    requires Inv(h) && !h.dead && IsCorrelationId(id) && !HasId(h.pending, id)
    ensures Inv(StubCall(h, path, args, id))
  {
    var h' := StubCall(h, path, args, id);
    assert forall i :: 0 <= i < |h.pending| ==> h.pending[i].id != id;
    AddEntryPreservesInv(h.pending, h.settled, h.nextPromise, id);
    assert h'.pending == h.pending + [PendingCall(id, h.nextPromise)];
  }

  /** Registering a fresh id with the next promise number keeps the invariant of a live table. */
  lemma AddEntryPreservesInv(ps: seq<PendingCall>, log: seq<Settlement>, next: nat, id: string)
    requires TableInv(ps, log, next, false) && IsCorrelationId(id)
    requires forall i :: 0 <= i < |ps| ==> ps[i].id != id
    ensures TableInv(ps + [PendingCall(id, next)], log, next + 1, false)
  {
    var ps' := ps + [PendingCall(id, next)];
    assert next !in SettledSet(log);
    AddEntryUnique(ps, next, id);
    forall q | 0 <= q < next + 1 ensures q in PendingSet(ps') || q in SettledSet(log) {
      if q < next {
        if q in PendingSet(ps) {
          var i :| 0 <= i < |ps| && ps[i].promise == q;
          assert ps'[i] == ps[i];
        }
      } else {
        assert ps'[|ps|].promise == next;
      }
    }
    assert forall i :: 0 <= i < |ps'| ==> ps'[i].promise !in SettledSet(log) by {
      forall i | 0 <= i < |ps'| ensures ps'[i].promise !in SettledSet(log) {
        if i < |ps| { assert ps'[i] == ps[i]; }
      }
    }
  }

  /** A fresh id and a promise number above every entry's keep the entries unique. */
  lemma AddEntryUnique(ps: seq<PendingCall>, next: nat, id: string)
    requires UniqueEntries(ps)
    requires forall i :: 0 <= i < |ps| ==> IsCorrelationId(ps[i].id) && ps[i].promise < next && ps[i].id != id
    requires IsCorrelationId(id)
    ensures UniqueEntries(ps + [PendingCall(id, next)])
    ensures forall i :: 0 <= i < |ps| + 1 ==>
      IsCorrelationId((ps + [PendingCall(id, next)])[i].id) && (ps + [PendingCall(id, next)])[i].promise < next + 1
  {
    var ps' := ps + [PendingCall(id, next)];
    assert forall i :: 0 <= i < |ps| ==> ps'[i] == ps[i];
  }

  /** The invariant reads only the table, the settlements, the promise counter and the dead flag. */
  lemma SameTable(h: Handle, h': Handle)
    requires Inv(h)
    requires h'.pending == h.pending && h'.settled == h.settled && h'.nextPromise == h.nextPromise && h'.dead == h.dead
    ensures Inv(h')
  {
  }

  /** Removing an entry keeps the remaining entries unique and within the counter. */
  lemma RemoveKeepsEntries(ps: seq<PendingCall>, next: nat, i: nat)
    requires i < |ps| && UniqueEntries(ps)
    requires forall j :: 0 <= j < |ps| ==> IsCorrelationId(ps[j].id) && ps[j].promise < next
    ensures UniqueEntries(RemoveAt(ps, i))
    ensures forall j :: 0 <= j < |RemoveAt(ps, i)| ==> IsCorrelationId(RemoveAt(ps, i)[j].id) && RemoveAt(ps, i)[j].promise < next
    ensures forall j :: 0 <= j < |RemoveAt(ps, i)| ==> RemoveAt(ps, i)[j].promise != ps[i].promise
  {
    var ps' := RemoveAt(ps, i);
    assert forall j :: 0 <= j < |ps'| ==> ps'[j] == ps[if j < i then j else j + 1];
  }

  /** The promises accounted for before a reply are still accounted for after it. */
  lemma SettleEntryAccounts(ps: seq<PendingCall>, log: seq<Settlement>, next: nat, i: nat, s: Settlement)
    requires i < |ps| && s.promise == ps[i].promise
    requires forall p :: 0 <= p < next ==> p in PendingSet(ps) || p in SettledSet(log)
    ensures forall p :: 0 <= p < next ==> p in PendingSet(RemoveAt(ps, i)) || p in SettledSet(log + [s])
  {
    var ps', q := RemoveAt(ps, i), s.promise;
    SettledAppend(log, [s]);
    assert [s][0].promise == q;
    forall p | 0 <= p < next ensures p in PendingSet(ps') || p in SettledSet(log + [s]) {
      if p != q && p in PendingSet(ps) {
        var k :| 0 <= k < |ps| && ps[k].promise == p;
        var j := if k < i then k else k - 1;
        assert ps'[j] == ps[k];
      }
    }
  }

  /** Settling the promise of entry i and removing the entry keeps the invariant. */
  lemma SettleEntryPreservesInv(ps: seq<PendingCall>, log: seq<Settlement>, next: nat, i: nat, s: Settlement)
    requires TableInv(ps, log, next, false) && i < |ps| && s.promise == ps[i].promise
    ensures TableInv(RemoveAt(ps, i), log + [s], next, false)
  {
    var ps', log' := RemoveAt(ps, i), log + [s];
    var q := s.promise;
    RemoveKeepsEntries(ps, next, i);
    SettleEntryAccounts(ps, log, next, i, s);
    AppendDistinctSettlements(log, [s], [ps[i]]);
    SettledAppend(log, [s]);
    assert [s][0].promise == q;
    assert SettledSet([s]) == {q};
    assert forall j :: 0 <= j < |log'| ==> log'[j].promise < next by {
      forall j | 0 <= j < |log'| ensures log'[j].promise < next {
        if j < |log| { assert log'[j] == log[j]; }
      }
    }
  }

  lemma ReplyPreservesInv(h: Handle, msg: Envelope, json: Json)
    requires Inv(h) && !h.dead && Conforming(msg)
    ensures Inv(OnMessage(h, msg, json).next)
  {
    var h' := OnMessage(h, msg, json).next;
    if msg.ref == REF && msg.cmd.CallRet? && msg.cmd.id != "" && HasId(h.pending, msg.cmd.id) {
      var i := FindPending(h.pending, msg.cmd.id).value;
      SettleEntryPreservesInv(h.pending, h.settled, h.nextPromise, i, h'.settled[|h.settled|]);
    } else if msg.ref == REF && msg.cmd.Emit? {
      assert msg.cmd.key != "exit" by {
        assert ReservedNames[1] == "exit";
      }
      SameTable(h, h');
    } else {
      SameTable(h, h');
    }
  }

  /** Rejecting distinct, not yet settled promises keeps the log free of repeats. */
  lemma {:induction false} AppendDistinctSettlements(log: seq<Settlement>, extra: seq<Settlement>, ps: seq<PendingCall>)
    requires SettledAtMostOnce(log) && UniqueEntries(ps) && |extra| == |ps|
    requires forall i :: 0 <= i < |ps| ==> extra[i].promise == ps[i].promise && ps[i].promise !in SettledSet(log)
    ensures SettledAtMostOnce(log + extra)
  {
    var l := log + extra;
    forall i, j | 0 <= i < j < |l| ensures l[i].promise != l[j].promise {
      if j >= |log| {
        assert l[j] == extra[j - |log|];
        if i >= |log| {
          assert l[i] == extra[i - |log|];
        } else {
          assert l[i] == log[i];
          assert log[i].promise in SettledSet(log);
        }
      }
    }
  }

  lemma ExitPreservesInv(h: Handle)
    requires Inv(h) && !h.dead
    ensures Inv(OnExit(h))
  {
    var h' := OnExit(h);
    var extra := h'.settled[|h.settled|..];
    assert h'.settled == h.settled + extra;
    assert forall i :: 0 <= i < |extra| ==> extra[i] == h'.settled[|h.settled| + i];
    AppendDistinctSettlements(h.settled, extra, h.pending);
    SettledAppend(h.settled, extra);
    assert forall i :: 0 <= i < |h'.settled| ==> h'.settled[i].promise < h'.nextPromise by {
      forall i | 0 <= i < |h'.settled| ensures h'.settled[i].promise < h'.nextPromise {
        if i >= |h.settled| { assert h'.settled[i] == extra[i - |h.settled|]; }
        else { assert h'.settled[i] == h.settled[i]; }
      }
    }
    ExitSettlesEveryCall(h);
  }

  /** Every event preserves the invariant. */
  lemma StepPreservesInv(h: Handle, ev: CoordinatorEvent, json: Json)
    requires Inv(h) && Allowed(h, ev)
    ensures Inv(Step(h, ev, json).next)
  {
    match ev
    case Invoke(path, args, id) => StubCallPreservesInv(h, path, args, id);
    case Receive(msg) => if !h.dead { ReplyPreservesInv(h, msg, json); }
    case Exited => if !h.dead { ExitPreservesInv(h); }
    case ProcessFailed(_) =>
  }

  /** The handle after a sequence of events, each allowed in the state it meets. */
  predicate AllowedRun(h: Handle, evs: seq<CoordinatorEvent>, json: Json)
    decreases |evs|
  {
    evs == [] || (Allowed(h, evs[0]) && AllowedRun(Step(h, evs[0], json).next, evs[1..], json))
  }

  function Run(h: Handle, evs: seq<CoordinatorEvent>, json: Json): Handle
    requires AllowedRun(h, evs, json)
    decreases |evs|
  {
    if evs == [] then h else Run(Step(h, evs[0], json).next, evs[1..], json)
  }

  lemma {:induction false} RunPreservesInv(h: Handle, evs: seq<CoordinatorEvent>, json: Json)
    requires Inv(h) && AllowedRun(h, evs, json)
    ensures Inv(Run(h, evs, json))
    decreases |evs|
  {
    if evs != [] {
      StepPreservesInv(h, evs[0], json);
      RunPreservesInv(Step(h, evs[0], json).next, evs[1..], json);
    }
  }

  /**
   * On a dead handle only the cluster's `error` event can still settle the spawn promise:
   * stub calls, late messages and a repeated exit leave it as it is.
   */
  lemma {:induction false} DeadHandleKeepsSpawn(h: Handle, evs: seq<CoordinatorEvent>, json: Json)
    requires h.dead && AllowedRun(h, evs, json)
    requires forall i :: 0 <= i < |evs| ==> !evs[i].ProcessFailed?
    ensures Run(h, evs, json).spawn == h.spawn && Run(h, evs, json).dead
    decreases |evs|
  {
    if evs != [] {
      var h1 := Step(h, evs[0], json).next;
      assert h1.spawn == h.spawn && h1.dead;
      assert forall i :: 0 <= i < |evs[1..]| ==> !evs[1..][i].ProcessFailed? by {
        forall i | 0 <= i < |evs[1..]| ensures !evs[1..][i].ProcessFailed? {
          assert evs[1..][i] == evs[i + 1];
        }
      }
      DeadHandleKeepsSpawn(h1, evs[1..], json);
    }
  }

  /**
   * A worker that exits before sending its export tree, without an `error` event, leaves
   * the promise `runWorker` returned pending for good: the `exit` listener settles only
   * the table.
   */
  lemma EarlyExitLeavesSpawnPending(file: string, useModeFast: JsValue, enableRespawn: JsValue,
                                    evs: seq<CoordinatorEvent>, json: Json)
    requires AllowedRun(OnExit(Spawn(file, useModeFast, enableRespawn)), evs, json)
    requires forall i :: 0 <= i < |evs| ==> !evs[i].ProcessFailed?
    ensures Run(OnExit(Spawn(file, useModeFast, enableRespawn)), evs, json).spawn == Waiting
  {
    DeadHandleKeepsSpawn(OnExit(Spawn(file, useModeFast, enableRespawn)), evs, json);
  }

  /**
   * Whatever happens to a spawned handle, no promise is settled twice, and once the
   * worker has exited no stub-call promise is left hanging.
   */
  lemma NoCallHangsAfterExit(file: string, useModeFast: JsValue, enableRespawn: JsValue,
                             evs: seq<CoordinatorEvent>, json: Json)
    requires AllowedRun(Spawn(file, useModeFast, enableRespawn), evs, json)
    ensures var h := Run(Spawn(file, useModeFast, enableRespawn), evs, json);
      && SettledAtMostOnce(h.settled)
      && (h.dead ==> forall p :: 0 <= p < h.nextPromise ==> p in SettledSet(h.settled))
  {
    SpawnEstablishesInv(file, useModeFast, enableRespawn);
    RunPreservesInv(Spawn(file, useModeFast, enableRespawn), evs, json);
  }

  /**
   * After the worker exits, every promise any stub call ever returned is settled: the
   * calls that were pending are rejected with "Worker exited.", so none hangs.
   */
  lemma ExitSettlesEveryCall(h: Handle)
    requires Inv(h) && !h.dead
    ensures forall p :: 0 <= p < h.nextPromise ==> p in SettledSet(OnExit(h).settled)
  {
    var h' := OnExit(h);
    var extra := h'.settled[|h.settled|..];
    assert h'.settled == h.settled + extra;
    SettledAppend(h.settled, extra);
    forall p | 0 <= p < h.nextPromise && p in PendingSet(h.pending) ensures p in SettledSet(extra) {
      var i :| 0 <= i < |h.pending| && h.pending[i].promise == p;
      assert extra[i].promise == p;
    }
  }

  /**
   * A reply settles the call registered under its id and no other, and a second reply
   * with the same id throws.
   */
  lemma ReplySettlesItsOwnCall(h: Handle, i: nat, msg: Envelope, json: Json)
    requires Inv(h) && i < |h.pending|
    requires msg.ref == REF && msg.cmd.CallRet? && msg.cmd.id == h.pending[i].id
    ensures var r := OnMessage(h, msg, json);
      && !r.threw
      && |r.next.settled| == |h.settled| + 1
      && r.next.settled[|h.settled|].promise == h.pending[i].promise
      && r.next.pending == RemoveAt(h.pending, i)
      && OnMessage(r.next, msg, json).threw
  {
    var id := msg.cmd.id;
    assert id != "" by { assert IsCorrelationId(h.pending[i].id); }
    assert HasId(h.pending, id);
    var k := FindPending(h.pending, id).value;
    assert k == i;
    var h' := OnMessage(h, msg, json).next;
    assert !HasId(h'.pending, id) by {
      forall j | 0 <= j < |h'.pending| ensures h'.pending[j].id != id {
        var m := if j < i then j else j + 1;
        assert h'.pending[j] == h.pending[m];
      }
    }
  }

  /** An id with no entry makes the listener throw, leaving the handle as it was. */
  lemma UnknownReplyThrows(h: Handle, msg: Envelope, json: Json)
    requires msg.ref == REF && msg.cmd.CallRet? && msg.cmd.id != "" && !HasId(h.pending, msg.cmd.id)
    ensures OnMessage(h, msg, json) == Reaction(h, true)
  {
  }
}

=== FILE: protocol.dfy ===
/** The IPC envelope exchanged between coordinator and worker, and the event-bridge check. */
module Protocol {
  import opened Wrappers
  import opened JsValues
  import opened Errors
  import opened ExportMap

  /** The `ref` tag every envelope of this library carries. */
  const REF: string := "runWorker"

  datatype Command =
    | Init(workerJsFile: string)
    | Call(id: string, functionPath: seq<string>, arguments: seq<JsValue>)
      /** `error` is `null` on success; `result` is the JSON text, absent for `undefined`. */
    | CallRet(id: string, functionPath: seq<string>, error: JsValue, result: Option<string>)
    | Content(tree: ExportNode)
    | Emit(key: string, obj: JsValue)
    | OtherCommand(cmd: string)

  /**
   * `{ref, cmd, ...payload}`. Node's IPC channel serializes each envelope as JSON; the
   * model delivers envelopes unchanged, which matches for JSON-representable payloads.
   */
  datatype Envelope = Envelope(ref: string, cmd: Command)

  /** A locally raised event: what `process.emit` / `retObj.emit` fires. */
  datatype Event = Event(name: string, payload: JsValue)

  /**
   * `JSON.stringify` and `JSON.parse`, as opaque parameters: `stringify` yields None
   * where JavaScript yields `undefined` (a function, a symbol).
   */
  datatype Json = Json(stringify: JsValue -> Option<string>, parse: string -> JsValue)

  /** `v` survives the trip through `JSON.stringify`, the `msg.result ?` test and `JSON.parse`. */
  predicate RoundTrips(json: Json, v: JsValue)
  {
    && json.stringify(v).Some?
    && json.stringify(v).value != ""
    && json.parse(json.stringify(v).value) == v
  }

  /** The cluster worker's own lifecycle events, which custom events may not reuse. */
  const ReservedNames: seq<string> := ["disconnect", "exit", "fork", "listening", "message", "online", "setup"]

  /** `~[...].indexOf(key)`: nonzero exactly when the key is in the list. */
  predicate IsReserved(key: string)
  {
    key in ReservedNames
  }

  /** `'<key>' is a reserved message keyword`. */
  function ReservedError(key: string): (e: ErrorObj)
    ensures LookupProp(e.own, "message") == Some(Str("'" + key + "' is a reserved message keyword"))
  {
    NewError("Error", "'" + key + "' is a reserved message keyword")
  }
}

=== FILE: proxy.dfy ===
/**
 * The proxy builder (the `mapper` closure of `runWorker`): from the announced export
 * tree, the assignments that build the coordinator's mirror of call stubs.
 */
module Proxy {
  import opened Wrappers
  import opened JsValues
  import opened ExportMap

  /** What an assignment puts on the mirror: a fresh `[]`, a fresh `{}`, or a call stub. */
  datatype MirrorEntry = ArrayMirror | ObjectMirror | Stub(functionPath: seq<string>)

  /** `parent[key] = entry`, with the parent's position written as the path to it. */
  datatype Assignment = Assign(location: seq<string>, entry: MirrorEntry)

  predicate IsPrefix(p: seq<string>, q: seq<string>)
  {
    |p| <= |q| && q[..|p|] == p
  }

  /** Node kinds the mapper puts on the mirror (when their key is truthy). */
  predicate Mirrored(k: NodeType)
  {
    k == ArrayType || k == ObjectType || IsCallableKind(k)
  }

  /** The entry a mirrored node receives at `location`. */
  function EntryFor(k: NodeType, location: seq<string>): MirrorEntry
    requires Mirrored(k)
  {
    if k == ArrayType then ArrayMirror
    else if k == ObjectType then ObjectMirror
    else Stub(location)
  }

  /**
   * `mapper(obj, parent, pathParts)`, where `parts` is both `pathParts` and the position
   * of `parent` in the mirror. Only a truthy key extends the path; a container with a
   * falsy key maps its children into the current parent; a callable with a falsy key is
   * assigned to the local `parent` and lost; other kinds produce nothing.
   */
  function Mapper(n: ExportNode, parts: seq<string>): (log: seq<Assignment>)
    ensures forall j :: 0 <= j < |log| ==>
      |log[j].location| > |parts| && IsPrefix(parts + TruthyKey(n.key), log[j].location)
    ensures forall j :: 0 <= j < |log| && log[j].entry.Stub? ==>
      log[j].entry.functionPath == log[j].location
    decreases n, 1, 0
  {
    var here := parts + TruthyKey(n.key);
    match n.kind
    case ArrayType =>
      (if KeyTruthy(n.key) then [Assign(here, ArrayMirror)] else []) + MapChildren(n, 0, here)
    case ObjectType =>
      (if KeyTruthy(n.key) then [Assign(here, ObjectMirror)] else []) + MapChildren(n, 0, here)
    case FunctionType | AsyncFunctionType | PromiseType =>
      if KeyTruthy(n.key) then [Assign(here, Stub(here))] else []
    case _ => []
  }

  /** `for (let el of obj.children) mapper(el, newParent, newPathParts)`, from child `i` on. */
  function MapChildren(n: ExportNode, i: nat, parts: seq<string>): (log: seq<Assignment>)
    requires i <= |n.children|
    ensures forall j :: 0 <= j < |log| ==>
      |log[j].location| > |parts| && log[j].location[..|parts|] == parts
    ensures forall j :: 0 <= j < |log| && log[j].entry.Stub? ==>
      log[j].entry.functionPath == log[j].location
    decreases n, 0, |n.children| - i
  {
    if i == |n.children| then []
    else Mapper(n.children[i], parts) + MapChildren(n, i + 1, parts)
  }

  /** An address whose every node before the last is a container, i.e. one the mapper visits. */
  predicate Visited(n: ExportNode, a: seq<nat>)
    decreases |a|
  {
    a == [] || ((n.kind == ArrayType || n.kind == ObjectType) && a[0] < |n.children| && Visited(n.children[a[0]], a[1..]))
  }

  lemma {:induction false} VisitedIsValid(n: ExportNode, a: seq<nat>)
    requires Visited(n, a)
    ensures ValidAddr(n, a)
    decreases |a|
  {
    if a != [] {
      VisitedIsValid(n.children[a[0]], a[1..]);
    }
  }

  /** The mirror position of the node at address `a` when `n` is mapped under `parts`. */
  function Location(n: ExportNode, parts: seq<string>, a: seq<nat>): seq<string>
    requires ValidAddr(n, a)
  {
    parts + TruthyKey(n.key) + KeysAlong(n, a)
  }

  /** An assignment made while mapping the i-th child is among `MapChildren(n, i0, …)` for i0 <= i. */
  lemma {:induction false} MapChildrenIncludes(n: ExportNode, i0: nat, i: nat, parts: seq<string>, x: Assignment)
    requires i0 <= i < |n.children|
    requires x in Mapper(n.children[i], parts)
    ensures x in MapChildren(n, i0, parts)
    decreases |n.children| - i0
  {
    if i0 < i {
      MapChildrenIncludes(n, i0 + 1, i, parts, x);
    }
  }

  /**
   * Completeness: every visited node of a mirrored kind with a truthy key receives its
   * entry at its location; for callables, a stub whose path is that location.
   */
  lemma {:induction false} MapperCovers(n: ExportNode, parts: seq<string>, a: seq<nat>)
    requires Visited(n, a)
    requires ValidAddr(n, a)
    requires Mirrored(NodeAt(n, a).kind) && KeyTruthy(NodeAt(n, a).key)
    ensures Assign(Location(n, parts, a), EntryFor(NodeAt(n, a).kind, Location(n, parts, a))) in Mapper(n, parts)
    decreases |a|
  {
    var here := parts + TruthyKey(n.key);
    if a == [] {
      assert KeysAlong(n, a) == [];
      assert Location(n, parts, a) == here;
      MapperCoversRoot(n, parts);
    } else {
      var i, b := a[0], a[1..];
      LocationStep(n, parts, a);
      MapperCovers(n.children[i], here, b);
      ChildAssignmentInMapper(n, parts, i, Assign(Location(n, parts, a), EntryFor(NodeAt(n, a).kind, Location(n, parts, a))));
    }
  }

  /** Addresses below a container: the location and node are the child's, one level down. */
  lemma LocationStep(n: ExportNode, parts: seq<string>, a: seq<nat>)
    requires Visited(n, a) && ValidAddr(n, a) && a != []
    ensures n.kind == ArrayType || n.kind == ObjectType
    ensures a[0] < |n.children| && Visited(n.children[a[0]], a[1..]) && ValidAddr(n.children[a[0]], a[1..])
    ensures NodeAt(n, a) == NodeAt(n.children[a[0]], a[1..])
    ensures Location(n, parts, a) == Location(n.children[a[0]], parts + TruthyKey(n.key), a[1..])
  {
    var c, b := n.children[a[0]], a[1..];
    assert KeysAlong(n, a) == TruthyKey(c.key) + KeysAlong(c, b);
  }

  /** Whatever a container's child assigns, the container's mapper assigns too. */
  lemma ChildAssignmentInMapper(n: ExportNode, parts: seq<string>, i: nat, x: Assignment)
    requires (n.kind == ArrayType || n.kind == ObjectType) && i < |n.children|
    requires x in Mapper(n.children[i], parts + TruthyKey(n.key))
    ensures x in Mapper(n, parts)
  {
    var here := parts + TruthyKey(n.key);
    MapChildrenIncludes(n, 0, i, here, x);
    MapperContainer(n, parts);
  }

  /** A mirrored node with a truthy key assigns its own entry first. */
  lemma MapperCoversRoot(n: ExportNode, parts: seq<string>)
    requires Mirrored(n.kind) && KeyTruthy(n.key)
    ensures var here := parts + TruthyKey(n.key);
      Assign(here, EntryFor(n.kind, here)) in Mapper(n, parts)
  {
    var here := parts + TruthyKey(n.key);
    if n.kind == ArrayType || n.kind == ObjectType {
      MapperContainer(n, parts);
      assert Mapper(n, parts)[0] == Assign(here, EntryFor(n.kind, here));
    } else {
      MapperLeaf(n, parts);
    }
  }

  /** Soundness, for the children: every assignment comes from mapping one of them. */
  lemma {:induction false} MapChildrenOrigin(n: ExportNode, i0: nat, parts: seq<string>, j: nat)
    returns (i: nat, k: nat)
    requires i0 <= |n.children|
    requires j < |MapChildren(n, i0, parts)|
    ensures i0 <= i < |n.children| && k < |Mapper(n.children[i], parts)|
    ensures MapChildren(n, i0, parts)[j] == Mapper(n.children[i], parts)[k]
    decreases |n.children| - i0
  {
    var first := Mapper(n.children[i0], parts);
    if j < |first| {
      i, k := i0, j;
    } else {
      i, k := MapChildrenOrigin(n, i0 + 1, parts, j - |first|);
    }
  }

  /** Unfolding `Mapper` on a container node. */
  lemma MapperContainer(n: ExportNode, parts: seq<string>)
    requires n.kind == ArrayType || n.kind == ObjectType
    ensures var here := parts + TruthyKey(n.key);
      Mapper(n, parts) ==
        (if KeyTruthy(n.key) then [Assign(here, EntryFor(n.kind, here))] else []) + MapChildren(n, 0, here)
  {
  }

  /** Unfolding `Mapper` on a leaf node. */
  lemma MapperLeaf(n: ExportNode, parts: seq<string>)
    requires n.kind != ArrayType && n.kind != ObjectType
    ensures var here := parts + TruthyKey(n.key);
      Mapper(n, parts) == (if KeyTruthy(n.key) && IsCallableKind(n.kind) then [Assign(here, Stub(here))] else [])
  {
  }

  /** Descending into child `i` of a container. */
  lemma DescendStep(n: ExportNode, parts: seq<string>, i: nat, b: seq<nat>)
    requires n.kind == ArrayType || n.kind == ObjectType
    requires i < |n.children|
    requires Visited(n.children[i], b) && ValidAddr(n.children[i], b)
    ensures Visited(n, [i] + b) && ValidAddr(n, [i] + b)
    ensures NodeAt(n, [i] + b) == NodeAt(n.children[i], b)
    ensures Location(n, parts, [i] + b) == Location(n.children[i], parts + TruthyKey(n.key), b)
  {
    assert ([i] + b)[1..] == b;
  }

  /**
   * Soundness: every assignment is the entry of some visited node of a mirrored kind with
   * a truthy key, made at that node's location. Scalar and `null` nodes, and callables
   * with a falsy key (the root among them), therefore produce nothing.
   */
  lemma {:induction false} MapperOrigin(n: ExportNode, parts: seq<string>, j: nat) returns (a: seq<nat>)
    requires j < |Mapper(n, parts)|
    ensures Visited(n, a) && ValidAddr(n, a)
    ensures Mirrored(NodeAt(n, a).kind) && KeyTruthy(NodeAt(n, a).key)
    ensures Mapper(n, parts)[j] == Assign(Location(n, parts, a), EntryFor(NodeAt(n, a).kind, Location(n, parts, a)))
    decreases n, 1
  {
    var here := parts + TruthyKey(n.key);
    assert Location(n, parts, []) == here;
    if n.kind == ArrayType || n.kind == ObjectType {
      MapperContainer(n, parts);
      if KeyTruthy(n.key) && j == 0 {
        a := [];
      } else {
        a := MapperOriginBelow(n, parts, j);
      }
    } else {
      MapperLeaf(n, parts);
      a := [];
    }
  }

  /** The soundness case of an assignment made while mapping a container's children. */
  lemma {:induction false} MapperOriginBelow(n: ExportNode, parts: seq<string>, j: nat) returns (a: seq<nat>)
    requires n.kind == ArrayType || n.kind == ObjectType
    requires (if KeyTruthy(n.key) then 1 else 0) <= j < |Mapper(n, parts)|
    ensures Visited(n, a) && ValidAddr(n, a)
    ensures Mirrored(NodeAt(n, a).kind) && KeyTruthy(NodeAt(n, a).key)
    ensures Mapper(n, parts)[j] == Assign(Location(n, parts, a), EntryFor(NodeAt(n, a).kind, Location(n, parts, a)))
    decreases n, 0
  {
    var here := parts + TruthyKey(n.key);
    var lead := if KeyTruthy(n.key) then 1 else 0;
    MapperContainer(n, parts);
    var i, k := MapChildrenOrigin(n, 0, here, j - lead);
    var c := n.children[i];
    assert c < n;
    var b := MapperOrigin(c, here, k);
    DescendStep(n, parts, i, b);
    a := [i] + b;
  }

  /** A callable root, whose key is `undefined`, puts nothing on the mirror. */
  lemma CallableRootLost(n: ExportNode, parts: seq<string>)
    requires IsCallableKind(n.kind) && n.key == None
    ensures Mapper(n, parts) == []
  {
  }

  // ---------------------------------------------------------------------------
  // The mirror itself: the entries reachable from the coordinator's worker object.

  type Mirror = map<seq<string>, MirrorEntry>

  /**
   * Performing one assignment: whatever was at the location (and everything reachable
   * through it) is detached, and the new entry takes its place.
   */
  function Apply(m: Mirror, x: Assignment): (r: Mirror)
    ensures x.location in r && r[x.location] == x.entry
    ensures forall q :: q in r && q != x.location ==> q in m && r[q] == m[q] && !IsPrefix(x.location, q)
    ensures forall q :: q in m && !IsPrefix(x.location, q) ==> q in r && r[q] == m[q]
  {
    (map q | q in m && !IsPrefix(x.location, q) :: m[q])[x.location := x.entry]
  }

  function ApplyAll(m: Mirror, log: seq<Assignment>): Mirror
    decreases |log|
  {
    if log == [] then m else ApplyAll(Apply(m, log[0]), log[1..])
  }

  lemma {:induction false} ApplyAllConcat(m: Mirror, l1: seq<Assignment>, l2: seq<Assignment>)
    ensures ApplyAll(m, l1 + l2) == ApplyAll(ApplyAll(m, l1), l2)
    decreases |l1|
  {
    if l1 != [] {
      assert (l1 + l2)[1..] == l1[1..] + l2;
      ApplyAllConcat(Apply(m, l1[0]), l1[1..], l2);
    } else {
      assert l1 + l2 == l2;
    }
  }

  /** Every mirror entry was there before or was put there by an assignment of the log. */
  lemma {:induction false} ApplyAllOrigin(m: Mirror, log: seq<Assignment>, q: seq<string>)
    requires q in ApplyAll(m, log)
    ensures (q in m && ApplyAll(m, log)[q] == m[q]) || Assign(q, ApplyAll(m, log)[q]) in log
    decreases |log|
  {
    if log != [] {
      var m1 := Apply(m, log[0]);
      ApplyAllOrigin(m1, log[1..], q);
      if Assign(q, ApplyAll(m, log)[q]) in log[1..] {
        assert log == [log[0]] + log[1..];
      } else if q == log[0].location {
        assert log[0] == Assign(q, ApplyAll(m, log)[q]);
      }
    }
  }

  /** An entry survives a log none of whose locations is a prefix of it. */
  lemma {:induction false} ApplyAllKeeps(m: Mirror, log: seq<Assignment>, q: seq<string>)
    requires q in m
    requires forall j :: 0 <= j < |log| ==> !IsPrefix(log[j].location, q)
    ensures q in ApplyAll(m, log) && ApplyAll(m, log)[q] == m[q]
    decreases |log|
  {
    if log != [] {
      assert !IsPrefix(log[0].location, q);
      ApplyAllKeeps(Apply(m, log[0]), log[1..], q);
    }
  }

  /** The mirror once a `content` message has been mapped onto the worker object. */
  function MapContent(m: Mirror, tree: ExportNode): Mirror
  {
    ApplyAll(m, Mapper(tree, []))
  }

  /** In a nice tree every valid address is one the mapper visits. */
  lemma {:induction false} NiceVisited(n: ExportNode, a: seq<nat>)
    requires NiceTree(n) && ValidAddr(n, a)
    ensures Visited(n, a)
    decreases |a|
  {
    if a != [] {
      NiceVisited(n.children[a[0]], a[1..]);
    }
  }

  /** The assignments made for children `i..` of a nice tree never touch the subtree of an earlier child. */
  lemma MapChildrenAvoids(n: ExportNode, i: nat, parts: seq<string>, c: nat, q: seq<string>)
    requires NiceTree(n) && c < i <= |n.children|
    requires IsPrefix(parts + TruthyKey(n.children[c].key), q)
    ensures forall j :: 0 <= j < |MapChildren(n, i, parts)| ==> !IsPrefix(MapChildren(n, i, parts)[j].location, q)
  {
    var log := MapChildren(n, i, parts);
    forall j | 0 <= j < |log|
      ensures !IsPrefix(log[j].location, q)
    {
      var i', k := MapChildrenOrigin(n, i, parts, j);
      var kc, ki := n.children[c].key.value, n.children[i'].key.value;
      assert kc != ki;
      var loc := log[j].location;
      assert IsPrefix(parts + [ki], loc);
      assert loc[|parts|] == ki;
    }
  }

  /**
   * In a nice tree nothing is overwritten: once the whole tree is mapped, every mirrored
   * node below the root holds its own entry at its own location.
   */
  lemma {:induction false} MapperKeepsEntry(n: ExportNode, parts: seq<string>, m: Mirror, a: seq<nat>)
    requires NiceTree(n) && ValidAddr(n, a) && (a != [] || KeyTruthy(n.key))
    requires Mirrored(NodeAt(n, a).kind)
    ensures var loc := Location(n, parts, a);
      loc in ApplyAll(m, Mapper(n, parts)) && ApplyAll(m, Mapper(n, parts))[loc] == EntryFor(NodeAt(n, a).kind, loc)
    decreases n, 1
  {
    var here := parts + TruthyKey(n.key);
    assert Location(n, parts, []) == here;
    if n.kind == ArrayType || n.kind == ObjectType {
      if a == [] {
        ContainerKeepsEntry(n, parts, m);
      } else {
        ChildKeepsEntry(n, parts, m, a);
      }
    } else {
      NiceVisited(n, a);
      MapperLeaf(n, parts);
      assert ApplyAll(m, Mapper(n, parts)) == Apply(m, Mapper(n, parts)[0]);
    }
  }

  /** A container with a truthy key keeps its own entry: its children are mapped beneath it. */
  lemma ContainerKeepsEntry(n: ExportNode, parts: seq<string>, m: Mirror)
    requires NiceTree(n) && (n.kind == ArrayType || n.kind == ObjectType) && KeyTruthy(n.key)
    ensures var here := parts + TruthyKey(n.key);
      here in ApplyAll(m, Mapper(n, parts)) && ApplyAll(m, Mapper(n, parts))[here] == EntryFor(n.kind, here)
  {
    var here := parts + TruthyKey(n.key);
    MapperContainer(n, parts);
    var lead := [Assign(here, EntryFor(n.kind, here))];
    ApplyAllConcat(m, lead, MapChildren(n, 0, here));
    assert ApplyAll(m, lead) == Apply(m, lead[0]);
    ApplyAllKeeps(ApplyAll(m, lead), MapChildren(n, 0, here), here);
  }

  /** A node below a container keeps the entry its own subtree gave it. */
  lemma {:induction false} ChildKeepsEntry(n: ExportNode, parts: seq<string>, m: Mirror, a: seq<nat>)
    requires NiceTree(n) && (n.kind == ArrayType || n.kind == ObjectType)
    requires ValidAddr(n, a) && a != [] && Mirrored(NodeAt(n, a).kind)
    ensures var loc := Location(n, parts, a);
      loc in ApplyAll(m, Mapper(n, parts)) && ApplyAll(m, Mapper(n, parts))[loc] == EntryFor(NodeAt(n, a).kind, loc)
    decreases n, 0, |n.children| + 1
  {
    var here := parts + TruthyKey(n.key);
    NiceVisited(n, a);
    MapperContainer(n, parts);
    var lead := if KeyTruthy(n.key) then [Assign(here, EntryFor(n.kind, here))] else [];
    ApplyAllConcat(m, lead, MapChildren(n, 0, here));
    var i, b := a[0], a[1..];
    assert a == [i] + b;
    DescendStep(n, parts, i, b);
    MapChildrenKeepsEntry(n, 0, here, ApplyAll(m, lead), i, b);
  }

  lemma {:induction false} MapChildrenKeepsEntry(n: ExportNode, i0: nat, here: seq<string>, m: Mirror, i: nat, b: seq<nat>)
    requires NiceTree(n) && i0 <= i < |n.children| && ValidAddr(n.children[i], b)
    requires Mirrored(NodeAt(n.children[i], b).kind)
    ensures var loc := Location(n.children[i], here, b);
      loc in ApplyAll(m, MapChildren(n, i0, here))
      && ApplyAll(m, MapChildren(n, i0, here))[loc] == EntryFor(NodeAt(n.children[i], b).kind, loc)
    decreases n, 0, |n.children| - i0
  {
    var c := n.children[i0];
    assert c < n;
    var rest := MapChildren(n, i0 + 1, here);
    assert MapChildren(n, i0, here) == Mapper(c, here) + rest;
    ApplyAllConcat(m, Mapper(c, here), rest);
    if i0 == i {
      MapperKeepsEntry(c, here, m, b);
      var loc := Location(c, here, b);
      MapChildrenAvoids(n, i0 + 1, here, i0, loc);
      ApplyAllKeeps(ApplyAll(m, Mapper(c, here)), rest, loc);
    } else {
      MapChildrenKeepsEntry(n, i0 + 1, here, ApplyAll(m, Mapper(c, here)), i, b);
    }
  }
}

=== FILE: wrappers.dfy ===
/** Failure-carrying wrappers shared by the whole model. */
module Wrappers {

  /** A value that may be absent; `None` plays the part of JavaScript's `undefined`. */
  datatype Option<+T> = None | Some(value: T)

  /** The outcome of a step that may throw: `Failure` carries what was thrown. */
  datatype Result<+R, +E> = Success(value: R) | Failure(error: E)
}
